=== FILE: README.md ===
# A verified model of the threaded range downloader

`ContentRequest` downloads one URL with several threads. The steps are:

- A `HEAD` request gives the `Content-Length`.
- `get_offset` cuts that length into one `(start, end)` pair per thread.
- `start` turns each pair into a `Range: Bytes=start-end` header.
- One thread per header runs `request_content`. It makes up to five attempts,
  sleeping `i * 3` seconds after the `i`-th transport error. It stores a 206
  reply in the shared dictionary `resp`, keyed by the start text of the
  `Range` value, and appends the headers to the shared tuple `reload` on any
  other status.
- After all threads join, `start` calls `write_file` only when `reload` is
  empty.
- `write_file` seeks each response to the start read from its `Content-Range`
  header and writes its body.

`lib_http.py` is a byte-for-byte copy of `http_threading.py`, so every
citation below holds for both files.

The Dafny modules follow the program's structure:

| module | file | models |
|---|---|---|
| `Text` | `text.dfy` | `str.split`, `[-1]`, decimal `str(n)` and `int(s)` |
| `Plan` | `plan.dfy` | `get_offset` |
| `Headers` | `headers.dfy` | the `Range` value built in `start`, the key `request_content` takes from it, and the start `write_file` reads from `Content-Range` |
| `Fetch` | `fetch.dfy` | `request_content`, with `resp` as an insertion-ordered dictionary, plus the corrected variant of the findings below |
| `Assemble` | `assemble.dfy` | `write_file` over a byte sequence, including zero-filled gaps after seeking past the end |
| `Transfer` | `transfer.dfy` | the file name built in `__init__`, and `start`: the threads in a given completion order, then the all-or-nothing check on `reload` |
| `Server` | `server.dfy` | a server that honours byte ranges (section 14 of RFC 9110) and replies in the identity coding, used only to state what a correct download yields |
| `EndToEnd` | `end_to_end.dfy` | whole runs against that server, and the two runs that show the findings |

Threads are modelled by their completion order. `order` is a permutation of
the segment indices, and each `request_content` call takes effect on `resp`
and `reload` in that order. The network is a parameter: `net(k, a)` is what
the `a`-th `requests.get` of segment `k` returns, either a raised
`RequestException` or a response. The `HEAD` reply's headers are a parameter
of `Transfer.Run`.

## Model

| member | source | states |
|---|---|---|
| Text.Split | http_threading.py:29 | `str.split(c)`: at least one piece, the pieces joined with `c` give back the text, and no piece contains `c` |
| Text.Decimal | http_threading.py:79 | `str(n)`: a non-empty run of ASCII digits without a leading zero unless `n` is 0; `Text.ParseDecimal` gives its inverse |
| Text.ParseNat | http_threading.py:37 | `int(s)` restricted to ASCII digits, `None` for the `ValueError`; its meaning is stated by `Text.ParseDecimal` |
| Text.ParseDecimal | http_threading.py:37 | `int()` applied to the decimal text of `n` gives back `n` |
| Text.DecimalInjective | http_threading.py:50 | different numbers have different decimal texts, so start keys of different starts differ |
| Text.LastPieceIsSuffix | http_threading.py:29 | `split(c)[-1]` is a suffix of the text, contains no `c`, and is preceded by `c` unless it is the whole text |
| Plan.Offset | http_threading.py:38 | `int(content_length / threads)`; its meaning is stated by `Plan.OffsetIsFloor` |
| Plan.OffsetIsFloor | http_threading.py:38 | the offset is the largest number whose product with the thread count does not exceed the content length |
| Plan.GetOffset | http_threading.py:34-43 | zero threads is exactly the `ZeroDivisionError` case; a negative count yields no pairs; a positive count yields exactly `threads` pairs |
| Plan.SegmentsFrom | http_threading.py:39-43 | pair `k` starts at `k * offset`; it is closed exactly when `k < threads - 1`, and then it ends at `(k + 1) * offset` |
| Plan.ClosedSegments | http_threading.py:40-41 | every pair but the last is `(i * offset, (i + 1) * offset)` |
| Plan.LastSegmentAbsorbsRemainder | http_threading.py:42-43 | the last pair is open-ended, starts within the content, and spans `offset + length mod threads` bytes |
| Plan.NeighboursMeet | http_threading.py:41 | each closed end equals the next pair's start |
| Plan.NeighboursShareOneByte | http_threading.py:41 | with inclusive range ends, two neighbouring requests share exactly one byte, the boundary |
| Plan.DistantSegmentsDisjoint | http_threading.py:38-43 | when the offset is positive, pairs that are not neighbours request no common byte |
| Plan.PlanCoversContent | http_threading.py:38-43 | every byte below the content length is requested by some pair |
| Plan.CoveringIndex | http_threading.py:38-43 | names the pair whose share `[start, next start)` holds a given byte |
| Plan.SegmentsInside | http_threading.py:38-43 | for a non-empty resource every pair starts inside it and no closed pair ends before its start |
| Plan.StartsDistinct | http_threading.py:38-41 | with at least as many bytes as threads, the pairs' starts strictly increase |
| Headers.RangeValue | http_threading.py:79 | `'Bytes={}-{}'.format(start, end)`, with `''` for the open end; `Headers.RangeValueParts` and `Headers.RangeValueInjective` state how it splits and that it determines the pair |
| Headers.BuildHeaders | http_threading.py:79 | the header dictionary of one pair: the `Range` value and `Accept-Encoding: *`; `Headers.RangeKeyRoundTrip` states what `request_content` reads back from it |
| Headers.RangeKey | http_threading.py:50 | a key exists exactly when the value contains `=` (otherwise `IndexError`); the key contains neither `-` nor `=` |
| Headers.RangeKeyRoundTrip | http_threading.py:50 | the key taken from a built `Range` value is the start's decimal text, for closed and open-ended pairs alike, and reads back as the start |
| Headers.RangeValueParts | http_threading.py:79 | a built `Range` value splits into exactly two parts on `=`, and the second splits on `-` into the start text and the end text (empty for the open-ended pair) |
| Headers.RangeValueInjective | http_threading.py:79 | different pairs give different `Range` values |
| Headers.ContentRangeStart | http_threading.py:69 | the start `write_file` reads from a `Content-Range` value, `None` for the `ValueError`; its meaning is stated by `Headers.ContentRangeStartOf` and `Headers.ContentRangeRoundTrip` |
| Headers.ContentRangeStartOf | http_threading.py:69 | any value `bytes S-...` yields start `S`, whatever follows the dash |
| Headers.ContentRangeRoundTrip | http_threading.py:69 | a complete `bytes S-E/T` value yields `S` |
| Fetch.Store | http_threading.py:53 | `d[key] = v`: the key now maps to `v` and every other key keeps its value; an existing key keeps its position; a new key goes last |
| Fetch.StoreKeepsUniqueKeys | http_threading.py:53 | storing keeps the dictionary's keys distinct |
| Fetch.Values | http_threading.py:92 | `resp.values()` lists the values in insertion order |
| Fetch.LookupInValues | http_threading.py:92 | a value found under some key is among `values()` |
| Fetch.Backoff | http_threading.py:60-61 | the sleep after failed attempt `i`; `Fetch.Retry` states that the sleeps taken are `3, 6, 9, ...` in order |
| Fetch.Retry | http_threading.py:48-61 | at most five attempts; every attempt before the last one made raised; five raises leave the state unchanged; the first response ends the loop, stored on 206 and appended to `reload` otherwise; the sleeps are `3, 6, 9, ...` |
| Fetch.RequestContent | http_threading.py:45-62 | the retry contract above, plus the `IndexError` raised before any attempt when the `Range` value has no `=`; a 206 reply is stored under the `Range` start text |
| Fetch.RequestContentCorrected | http_threading.py:45-62 | the evidently intended variant: the reply is keyed by the whole `Range` value, and five failures put the headers in `reload` |
| Assemble.StartOf | http_threading.py:69 | the `Content-Range` start of a response, `None` for a missing header or unreadable start; `Server.IdealReplyIsSlice` states it is the requested start for a server reply |
| Assemble.WriteAt | http_threading.py:70-71 | `seek` then `write`: the data lands at the position, bytes outside it are unchanged or zero-filled, and the length is the maximum of the old end and the written end |
| Assemble.WriteFrom | http_threading.py:67-71 | the loop completes exactly when every response has a readable `Content-Range` start, and otherwise aborts |
| Assemble.WriteFile | http_threading.py:64-71 | starting from the empty file, writing completes exactly when every response has a readable start; `Assemble.AssemblyReproducesSource` states what it writes |
| Assemble.WriteSliceKeeps | http_threading.py:69-71 | writing a source slice at its own start keeps the file within the source, keeps bytes that already match, and makes the written bytes match |
| Assemble.WriteFromKeeps | http_threading.py:67-71 | the loop over consistent responses completes; every byte that matched or that a response covers ends up equal to the source |
| Assemble.AssemblyReproducesSource | http_threading.py:64-71 | responses that are slices of one source and together cover it write exactly that source |
| Assemble.AssemblyOrderIndependent | http_threading.py:67-71 | any rearrangement of such responses writes the same file |
| Assemble.AssembledSlices | http_threading.py:64-71 | in the assembled file each response's body reads back at its `Content-Range` start |
| Server.IdealReply | http_threading.py:13-17 | the reply of a server that honours byte ranges; its meaning is stated by `Server.IdealReplyIsSlice` |
| Server.IdealReplyIsSlice | http_threading.py:13-17 | a byte-range server answers 206 exactly when the range starts inside the content; its body is then the source slice at the start its `Content-Range` reports, holding exactly the requested bytes that exist |
| Transfer.FileName | http_threading.py:29 | `path + url.split('/')[-1]`; its meaning is stated by `Transfer.FileNameIsLastComponent` |
| Transfer.Step | http_threading.py:45-62 | one thread's `request_content` applied to the shared `resp` and `reload`; `Transfer.StepReload` and `EndToEnd.StepIdeal` state its effect |
| Transfer.Dispatch | http_threading.py:82-88 | the threads' effects in completion order; `Transfer.DispatchReload` and `EndToEnd.DispatchIdealResp` state what they leave in `reload` and `resp` |
| Transfer.Run | http_threading.py:73-100 | `start()`: read the length, plan, run the threads, and write only when `reload` is empty; `Transfer.RunWritesUnlessRejected`, `EndToEnd.RunDownloadsResource` and `EndToEnd.CorrectedRunDownloadsResource` state its outcome |
| Transfer.FileNameIsLastComponent | http_threading.py:29 | the destination is `path` followed by the url's text after its last `/` (the whole url when there is none) |
| Transfer.FirstResponseUnique | http_threading.py:48-57 | at most one attempt is the first to get a response |
| Transfer.StepReload | http_threading.py:52-56 | one thread appends its headers to `reload` exactly when its first response within five attempts is not a 206 |
| Transfer.RejectedHeadersMeaning | http_threading.py:56 | the rejected headers are empty exactly when no segment is rejected, and each entry belongs to a rejected segment |
| Transfer.DispatchReload | http_threading.py:82-88 | with each thread's call taken as one step, after all threads `reload` holds exactly the rejected segments' headers, in completion order |
| Transfer.StepKeepsUniqueKeys | http_threading.py:53 | one thread's store keeps the keys of `resp` distinct, in both variants |
| Transfer.DispatchKeepsUniqueKeys | http_threading.py:82-88 | whatever the completion order, the threads leave `resp` with distinct keys |
| Transfer.RunWritesUnlessRejected | http_threading.py:73-100 | with a usable length and a nonzero thread count, `start` writes the file exactly when no segment was rejected; otherwise `reload` lists only rejected segments' headers |
| EndToEnd.StepIdeal | http_threading.py:45-62 | against the honest server, one thread leaves the state alone (as written) or records its headers (corrected) after five failures, and otherwise stores the honest reply under its key |
| EndToEnd.StepIdealKeeps | http_threading.py:45-62 | one thread keeps stored responses as source slices and keeps the replies already stored, and adds its own unless it failed five times |
| EndToEnd.DispatchIdealResp | http_threading.py:82-88 | after all threads, every segment that did not fail five times has its honest reply stored, and all stored responses are source slices |
| EndToEnd.DispatchIdealReload | http_threading.py:82-88 | against the honest server, as written `reload` never changes; corrected, it stays unchanged exactly when no segment fails five times |
| EndToEnd.AsWrittenIdealReload | http_threading.py:52-57 | as written, against the honest server no thread touches `reload` |
| EndToEnd.CorrectedIdealReload | http_threading.py:58-62 | corrected, each thread that fails five times adds one entry to `reload` |
| EndToEnd.ExhaustedCountZero | http_threading.py:58-62 | no thread is counted exactly when none fails five times |
| EndToEnd.ValuesConsistent | http_threading.py:92 | when every stored response is a source slice, so is every element of `resp.values()` |
| EndToEnd.StoredRepliesCover | http_threading.py:38-43 | once every segment's honest reply is stored, the stored responses cover the whole resource |
| EndToEnd.RunOfLength | http_threading.py:90-100 | `start` with a readable length writes the assembled responses exactly when `reload` ends empty |
| EndToEnd.PlanInside | http_threading.py:38-43 | for a non-empty resource the planned pairs are valid ranges inside it |
| EndToEnd.DispatchIdeal | http_threading.py:73-92 | against a server that honours byte ranges (`IdealNet`), with no segment failing five times and segments that share a key sharing a reply, `reload` stays empty and the stored responses assemble into the resource |
| EndToEnd.RunDownloadsResource | http_threading.py:73-92 | as written, against a server that honours byte ranges (`IdealNet`), with a positive thread count no larger than the length and no five-fold failure, `start` writes exactly the resource, in any completion order |
| EndToEnd.CorrectedKeysDetermineReplies | http_threading.py:50-53 | keyed by the whole `Range` value, only equal pairs share a key |
| EndToEnd.CorrectedRunDownloadsResource | http_threading.py:73-92 | corrected, against a server that honours byte ranges (`IdealNet`), for any non-empty resource and any positive thread count, the file is written exactly when no segment fails five times, and then it is the resource |
| EndToEnd.SingleWrite | http_threading.py:64-71 | one response at offset 0 writes its body as the whole file |
| EndToEnd.TruncatingPlan | http_threading.py:38-43 | two bytes over three threads give the pairs `(0, 0)`, `(0, 0)` and `(0, '')` |
| EndToEnd.TruncatingStep | http_threading.py:50-53 | in that run, a thread that gets its reply stores it under `"0"`, replacing what was there |
| EndToEnd.TruncatingAdvance | http_threading.py:50-53 | in that run, each further thread replaces the single stored reply with its own |
| EndToEnd.TruncatingDispatch | http_threading.py:82-88 | unless the open-ended pair finishes last, only the one-byte reply remains |
| EndToEnd.SharedStartKeyTruncates | http_threading.py:50-53 | as written, the two-byte run writes only the first byte; corrected, it writes both |
| EndToEnd.HolePlan | http_threading.py:38-43 | four bytes over two threads give the pairs `(0, 2)` and `(2, '')` |
| EndToEnd.HoleFirstStep | http_threading.py:52-53 | in that run, the first segment's reply is stored under its key |
| EndToEnd.HoleSecondStep | http_threading.py:58-62 | in that run, the second segment's five failures change nothing as written, and add its headers to `reload` when corrected |
| EndToEnd.HoleDispatch | http_threading.py:82-88 | in that run, only the first reply is stored, and `reload` is empty as written and holds the second segment's headers when corrected |
| EndToEnd.ExhaustedSegmentLeavesHole | http_threading.py:58-62 | as written, a segment failing five times is recorded nowhere, and the four-byte file is written without its last byte; corrected, nothing is written and the failed headers are reported |

## Left out

- Threads: each `request_content` call takes effect on `resp` and `reload` as one step, in a given completion order. Interleavings inside a call are not modelled.
- Transfer.DispatchReload: `self.reload += (headers, )` is a read, a tuple concatenation and a write, and CPython may switch threads between them. Two rejected threads can then lose one of the two appends. `reload` still ends non-empty whenever some segment is rejected, so the write decision of `start` is unaffected, but in the real program `reload` may hold fewer than all the rejected segments' headers.
- Network and HTTP library: `requests.head` and `requests.get` are parameters. The `HEAD` reply is a header map, and each attempt's outcome comes from `net`. An exception from `requests.head` itself is not modelled.
- Header names: `requests` treats them case-insensitively. The model looks up `Content-Length` and `Content-Range` by their exact spelling.
- Clock and sleeping: `time.time`, `time.sleep`, the elapsed time and the speed computation are left out. The backoff durations are returned as `Fetched.sleeps`.
- Output: `print` calls and `main` are left out.
- Files: opening and closing the file, and I/O errors, are left out. The file is a byte sequence.
- Plan.Offset: `int(content_length / threads)` is float division followed by truncation. The model uses exact floor division, which agrees while the length is below 2^53.
- Text.ParseNat: Python's `int()` also accepts a sign, surrounding whitespace and underscores. The model accepts only ASCII digits. A `Content-Length` such as `+5` is therefore treated like a non-numeric one (`HeadFailed`), and a `Content-Range` start such as the `+5` of `bytes +5-9/10` makes `write_file` stop (`Aborted`) where Python would read 5.
- Request headers: the code sends `Bytes=` with a capital `B` and `Accept-Encoding: *`, and the model builds exactly these. The code does not check that the start a reply confirms equals the requested one, and it does not clamp the thread count; the model does neither.
- Thread counts and empty resources: a negative thread count plans no pairs, so `start` writes an empty file, and zero threads raise `ZeroDivisionError` (`PlanFailed`). The download theorems therefore assume a positive thread count. An empty resource cannot be downloaded by either variant: the open-ended `Bytes=0-` request cannot be satisfied, a server answers 416 (section 15.5.17 of RFC 9110), `request_content` puts the headers in `reload`, and `start` reports an error instead of writing the empty file. The download theorems assume a non-empty resource.
- Content coding: the code accepts any coding (`Accept-Encoding: *`, and under section 12.5.3 of RFC 9110 `*` matches every content coding). `Server.IdealReply` always sends the identity coding, so a compressed reply, which `requests` would decode before the body is written, is not covered by the download theorems.
- Range ends are inclusive (section 14.1.2 of RFC 9110), so neighbouring requests overlap by one byte (`Plan.NeighboursShareOneByte`). Both requests receive that byte from the same resource, so the overlap is harmless.

## Findings

| source | as written | input that shows it | evidently intended | confidence | as-written member | corrected member |
|---|---|---|---|---|---|---|
| http_threading.py:50-53 | a 206 reply is stored under the start text of its `Range` value, so pairs with equal starts replace one another | a 2-byte resource with 3 threads: the pairs are `(0,0)`, `(0,0)`, `(0,'')`; when the open-ended pair is not the last to finish, only the one-byte reply stays and the file written is the first byte alone | every segment's reply is kept; keying by the whole `Range` value does this | not executed | EndToEnd.SharedStartKeyTruncates | EndToEnd.CorrectedRunDownloadsResource |
| http_threading.py:58-62 | after five transport errors `request_content` returns without recording anything, so `start` sees an empty `reload` and writes a file with a hole | a 4-byte resource with 2 threads, where every attempt of the second segment raises: the file is written from the first reply only, 3 bytes long | a segment that fails five times is reported like a rejected one, and no file is written | not executed | EndToEnd.ExhaustedSegmentLeavesHole | EndToEnd.CorrectedRunDownloadsResource |

Both corrections are in `Fetch.RequestContentCorrected`. `Transfer.Run` takes
a `Variant` that selects the code as written or the corrected version.
`EndToEnd.CorrectedRunDownloadsResource` proves that the corrected download
writes the resource exactly when no segment fails five times, against a
server that honours byte ranges (`IdealNet`), for every non-empty resource,
positive thread count and completion order.

=== FILE: assemble.dfy ===
/**
 Positional assembly (`ContentRequest.write_file`): the file is opened with
 `'wb'` (empty), and every response body is written at the start offset read
 from its `Content-Range` header. Seeking past the end and writing leaves a
 zero-filled gap; a missing header (`KeyError`) or an unreadable start
 (`ValueError`) aborts the loop with the bytes written so far left in place.
 */
module Assemble {
  import opened Text
  import opened Headers
  import opened Fetch

  datatype WriteResult = Complete(file: seq<bv8>) | Aborted(file: seq<bv8>)

  const ContentRangeField: string := "Content-Range"

  function Max(a: nat, b: nat): nat {
    if a < b then b else a
  }

  /** The file after `seek(pos)` and `write(data)`. */
  function WriteAt(file: seq<bv8>, pos: nat, data: seq<bv8>): (r: seq<bv8>)
    ensures |data| == 0 ==> r == file
    ensures |data| > 0 ==> |r| == Max(|file|, pos + |data|)
    ensures forall i :: 0 <= i < |data| ==> r[pos + i] == data[i]
    ensures forall i :: 0 <= i < |r| && !(pos <= i < pos + |data|) ==>
      r[i] == (if i < |file| then file[i] else 0)
  {
    if |data| == 0 then file
    else
      var padded := if pos <= |file| then file else file + seq(pos - |file|, _ => 0 as bv8);
      var tail := if pos + |data| < |padded| then padded[pos + |data|..] else [];
      padded[..pos] + data + tail
  }

  /** The start offset `write_file` reads from a response, if it can. */
  function StartOf(r: Response): Option<nat> {
    if ContentRangeField in r.headers then ContentRangeStart(r.headers[ContentRangeField]) else None
  }

  /** The loop of `write_file` over the responses from `rs` on. */
  function WriteFrom(file: seq<bv8>, rs: seq<Response>): (r: WriteResult)
    ensures r.Complete? <==> forall k :: 0 <= k < |rs| ==> StartOf(rs[k]).Some?
    decreases |rs|
  {
    if |rs| == 0 then Complete(file)
    else match StartOf(rs[0])
      case None => Aborted(file)
      case Some(start) => WriteFrom(WriteAt(file, start, rs[0].body), rs[1..])
  }

  /** `write_file(resp)`: start from an empty file. */
  function WriteFile(rs: seq<Response>): (r: WriteResult)
    ensures r.Complete? <==> forall k :: 0 <= k < |rs| ==> StartOf(rs[k]).Some?
  {
    WriteFrom([], rs)
  }

  /** The response's body is the slice of `src` at its `Content-Range` start. */
  predicate SliceOf(r: Response, src: seq<bv8>) {
    && StartOf(r).Some?
    && StartOf(r).value + |r.body| <= |src|
    && r.body == src[StartOf(r).value..StartOf(r).value + |r.body|]
  }

  predicate Consistent(rs: seq<Response>, src: seq<bv8>) {
    forall k :: 0 <= k < |rs| ==> SliceOf(rs[k], src)
  }

  /** Byte `i` lies in the part of the file response `r` writes. */
  predicate Holds(r: Response, i: int) {
    StartOf(r).Some? && StartOf(r).value <= i < StartOf(r).value + |r.body|
  }

  predicate Covered(rs: seq<Response>, i: int) {
    exists k :: 0 <= k < |rs| && Holds(rs[k], i)
  }

  predicate Covering(rs: seq<Response>, length: nat) {
    forall i :: 0 <= i < length ==> Covered(rs, i)
  }

  /** Byte `i` of the file already holds the source byte. */
  predicate Matches(file: seq<bv8>, src: seq<bv8>, i: int) {
    0 <= i < |file| && i < |src| && file[i] == src[i]
  }

  /** Writing a slice of the source at its own offset keeps the file within
      the source and leaves every byte either as it was or equal to the source. */
  lemma WriteSliceAt(file: seq<bv8>, s: nat, body: seq<bv8>, src: seq<bv8>)
    requires |file| <= |src| && s + |body| <= |src| && body == src[s..s + |body|]
    ensures var f := WriteAt(file, s, body);
      && |f| <= |src|
      && forall i :: Matches(file, src, i) || s <= i < s + |body| ==> Matches(f, src, i)
  {
    var f := WriteAt(file, s, body);
    forall i | Matches(file, src, i) || s <= i < s + |body|
      ensures Matches(f, src, i)
    {
      if s <= i < s + |body| {
        assert f[s + (i - s)] == body[i - s];
      } else {
        assert f[i] == file[i];
      }
    }
  }

  /** Writing a consistent response keeps the file within the source and
      leaves every byte either as it was or equal to the source. */
  lemma WriteSliceKeeps(file: seq<bv8>, r: Response, src: seq<bv8>)
    requires |file| <= |src| && SliceOf(r, src)
    ensures var f := WriteAt(file, StartOf(r).value, r.body);
      && |f| <= |src|
      && forall i :: Matches(file, src, i) || Holds(r, i) ==> Matches(f, src, i)
  {
    var s := StartOf(r).value;
    WriteSliceAt(file, s, r.body, src);
  }

  /** The writing loop only ever puts source bytes in place, and every byte
      some later response covers ends up equal to the source. */
  lemma {:induction false} WriteFromKeeps(file: seq<bv8>, rs: seq<Response>, src: seq<bv8>)
    requires |file| <= |src| && Consistent(rs, src)
    ensures WriteFrom(file, rs).Complete?
    ensures |WriteFrom(file, rs).file| <= |src|
    ensures forall i :: Matches(file, src, i) || Covered(rs, i) ==> Matches(WriteFrom(file, rs).file, src, i)
    decreases |rs|
  {
    if |rs| > 0 {
      var f := WriteAt(file, StartOf(rs[0]).value, rs[0].body);
      WriteSliceKeeps(file, rs[0], src);
      assert Consistent(rs[1..], src) by {
        forall k | 0 <= k < |rs| - 1
          ensures SliceOf(rs[1..][k], src)
        {
          assert rs[1..][k] == rs[k + 1];
        }
      }
      WriteFromKeeps(f, rs[1..], src);
      forall i | Covered(rs, i)
        ensures Holds(rs[0], i) || Covered(rs[1..], i)
      {
        var k :| 0 <= k < |rs| && Holds(rs[k], i);
        if k > 0 {
          assert rs[1..][k - 1] == rs[k];
        }
      }
    }
  }

  /** If every body is the slice of one source at its start and together the
      bodies cover the source, the written file is the source. */
  lemma AssemblyReproducesSource(rs: seq<Response>, src: seq<bv8>)
    requires Consistent(rs, src) && Covering(rs, |src|)
    ensures WriteFile(rs) == Complete(src)
  {
    WriteFromKeeps([], rs, src);
    var f := WriteFile(rs).file;
    forall i | 0 <= i < |src|
      ensures Matches(f, src, i)
    {
      assert Covered(rs, i);
    }
    assert |f| == |src| by {
      if |src| > 0 {
        assert Matches(f, src, |src| - 1);
      }
    }
    assert f == src by {
      forall i | 0 <= i < |src|
        ensures f[i] == src[i]
      {
        assert Matches(f, src, i);
      }
    }
  }

  /** The order of the writes does not matter: any rearrangement of a
      consistent, covering set of responses writes the same file. */
  lemma AssemblyOrderIndependent(rs: seq<Response>, rs': seq<Response>, src: seq<bv8>)
    requires multiset(rs) == multiset(rs')
    requires Consistent(rs, src) && Covering(rs, |src|)
    ensures WriteFile(rs') == WriteFile(rs) == Complete(src)
  {
    AssemblyReproducesSource(rs, src);
    forall k | 0 <= k < |rs'|
      ensures SliceOf(rs'[k], src)
    {
      var x := rs'[k];
      assert x in multiset(rs');
      assert x in rs;
    }
    forall i | 0 <= i < |src|
      ensures Covered(rs', i)
    {
      assert Covered(rs, i);
      var k :| 0 <= k < |rs| && Holds(rs[k], i);
      var x := rs[k];
      assert x in multiset(rs);
      assert x in rs';
    }
    AssemblyReproducesSource(rs', src);
  }

  /** Every written body can be read back at its offset (the file is the
      source, so each slice sits where its `Content-Range` says). */
  lemma AssembledSlices(rs: seq<Response>, src: seq<bv8>, k: nat)
    requires Consistent(rs, src) && Covering(rs, |src|) && k < |rs|
    ensures var f := WriteFile(rs).file; var s := StartOf(rs[k]).value;
      s + |rs[k].body| <= |f| && f[s..s + |rs[k].body|] == rs[k].body
  {
    AssemblyReproducesSource(rs, src);
  }
}

=== FILE: end_to_end.dfy ===
/**
 What a whole `start()` produces against a server that honours byte ranges (`IdealNet`):
 every attempt either raises or gets that server's reply. As written, with a
 positive thread count no larger than the length, the download reproduces
 the resource whenever no segment fails five times; the bound on the thread
 count and the absence of five-fold failures are both needed, as the two
 counterexamples at the end show. With the fixes of `RequestContentCorrected`,
 for a non-empty resource and a positive thread count, the file is written
 exactly when no segment failed five times, and then it is the resource.
 */
module EndToEnd {
  import opened Text
  import opened Plan
  import opened Headers
  import opened Fetch
  import opened Assemble
  import opened Transfer
  import opened Server

  /** The key under which a variant stores a segment's response. */
  function KeyOf(v: Variant, seg: Segment): string {
    match v
    case AsWritten => Decimal(seg.start)
    case Corrected => RangeValue(seg)
  }

  /** Every attempt of every segment raises or gets the honest reply. */
  predicate IdealNet(src: seq<bv8>, segs: seq<Segment>, net: (nat, nat) -> Attempt) {
    forall k, a :: 0 <= k < |segs| && 1 <= a <= MaxAttempts ==>
      net(k, a) == Raised || net(k, a) == Received(IdealReply(src, segs[k]))
  }

  /** Every pair starts inside the content and is a valid range. */
  predicate Inside(src: seq<bv8>, segs: seq<Segment>) {
    forall k :: 0 <= k < |segs| ==>
      segs[k].start < |src| && (segs[k].end.Some? ==> segs[k].start <= segs[k].end.value)
  }

  /** Segments that share a key have the same honest reply, so replacing one
      by the other loses nothing. */
  predicate KeysDetermineReplies(v: Variant, src: seq<bv8>, segs: seq<Segment>) {
    forall k, k' :: 0 <= k < |segs| && 0 <= k' < |segs| && KeyOf(v, segs[k]) == KeyOf(v, segs[k']) ==>
      IdealReply(src, segs[k]) == IdealReply(src, segs[k'])
  }

  /** Segment `k`'s honest reply is stored under its key. */
  predicate HasReply(v: Variant, src: seq<bv8>, segs: seq<Segment>, resp: Dict, k: nat)
    requires k < |segs|
  {
    Lookup(resp, KeyOf(v, segs[k])) == Some(IdealReply(src, segs[k]))
  }

  /** Against the honest server a thread either leaves the state alone
      (as written) or records its headers (corrected) after five failures,
      and otherwise stores the honest reply under its key. */
  lemma StepIdeal(v: Variant, st: Shared, seg: Segment, n: nat -> Attempt, src: seq<bv8>)
    requires seg.start < |src| && (seg.end.Some? ==> seg.start <= seg.end.value)
    requires forall a :: 1 <= a <= MaxAttempts ==> n(a) == Raised || n(a) == Received(IdealReply(src, seg))
    ensures Exhausts(n) ==>
      Step(v, st, seg, n) == if v == AsWritten then st else Shared(st.resp, st.reload + [BuildHeaders(seg)])
    ensures !Exhausts(n) ==>
      Step(v, st, seg, n) == Shared(Store(st.resp, KeyOf(v, seg), IdealReply(src, seg)), st.reload)
  {
    IdealReplyIsSlice(src, seg);
    RangeKeyRoundTrip(seg);
    var h := BuildHeaders(seg);
    if v == AsWritten {
      var r := RequestContent(st, h, n);
      if !Exhausts(n) {
        assert r.ending != Exhausted && r.ending != Crashed;
        assert n(r.attempts) == Received(IdealReply(src, seg));
      }
    } else {
      var r := RequestContentCorrected(st, h, n);
      if !Exhausts(n) {
        assert r.ending != Exhausted;
        assert n(r.attempts) == Received(IdealReply(src, seg));
      }
    }
  }

  /** One thread against the honest server keeps stored responses source
      slices and stored replies in place, adds its own reply unless it failed
      five times, and grows `reload` only in the corrected variant after five
      failures. */
  lemma StepIdealKeeps(v: Variant, st: Shared, segs: seq<Segment>, k0: nat,
                       net: (nat, nat) -> Attempt, src: seq<bv8>)
    requires k0 < |segs|
    requires IdealNet(src, segs, net) && Inside(src, segs) && KeysDetermineReplies(v, src, segs)
    requires forall e :: e in st.resp ==> SliceOf(e.1, src)
    ensures var st1 := Step(v, st, segs[k0], SegmentNet(net, k0));
      && (forall e :: e in st1.resp ==> SliceOf(e.1, src))
      && (forall k :: 0 <= k < |segs| && HasReply(v, src, segs, st.resp, k) ==> HasReply(v, src, segs, st1.resp, k))
      && (!Exhausts(SegmentNet(net, k0)) ==> HasReply(v, src, segs, st1.resp, k0))
      && st1.reload == st.reload + (if v == Corrected && Exhausts(SegmentNet(net, k0))
                                    then [BuildHeaders(segs[k0])] else [])
  {
    var n0 := SegmentNet(net, k0);
    var reply0 := IdealReply(src, segs[k0]);
    assert forall a :: 1 <= a <= MaxAttempts ==> n0(a) == net(k0, a);
    StepIdeal(v, st, segs[k0], n0, src);
    IdealReplyIsSlice(src, segs[k0]);
    var st1 := Step(v, st, segs[k0], n0);
    forall k | 0 <= k < |segs| && HasReply(v, src, segs, st.resp, k)
      ensures HasReply(v, src, segs, st1.resp, k)
    {
      if !Exhausts(n0) && KeyOf(v, segs[k]) == KeyOf(v, segs[k0]) {
        assert IdealReply(src, segs[k]) == reply0;
      }
    }
  }

  /** The threads' effects against the honest server on `resp`: stored
      responses are source slices, replies already stored stay, and every
      segment that did not fail five times has its reply stored. */
  lemma {:induction false} DispatchIdealResp(v: Variant, st: Shared, segs: seq<Segment>, order: seq<nat>,
                                             net: (nat, nat) -> Attempt, src: seq<bv8>)
    requires forall j :: 0 <= j < |order| ==> order[j] < |segs|
    requires IdealNet(src, segs, net) && Inside(src, segs) && KeysDetermineReplies(v, src, segs)
    requires forall e :: e in st.resp ==> SliceOf(e.1, src)
    ensures var r := Dispatch(v, st, segs, order, net);
      && (forall e :: e in r.resp ==> SliceOf(e.1, src))
      && (forall k :: 0 <= k < |segs| && HasReply(v, src, segs, st.resp, k) ==> HasReply(v, src, segs, r.resp, k))
      && (forall j :: 0 <= j < |order| && !Exhausts(SegmentNet(net, order[j])) ==>
            HasReply(v, src, segs, r.resp, order[j]))
    decreases |order|
  {
    if |order| > 0 {
      var k0 := order[0];
      var st1 := Step(v, st, segs[k0], SegmentNet(net, k0));
      StepIdealKeeps(v, st, segs, k0, net, src);
      var r := Dispatch(v, st1, segs, order[1..], net);
      assert forall j :: 0 <= j < |order[1..]| ==> order[1..][j] == order[j + 1];
      DispatchIdealResp(v, st1, segs, order[1..], net, src);
      DispatchFirst(v, st, segs, order, net);
      forall j | 0 <= j < |order| && !Exhausts(SegmentNet(net, order[j]))
        ensures HasReply(v, src, segs, r.resp, order[j])
      {
        if j > 0 {
          assert order[1..][j - 1] == order[j];
        }
      }
    }
  }

  /** The threads' effects against the honest server on `reload`: as written
      it never changes; corrected, it grows, and stays as it was exactly when
      no segment fails five times. */
  lemma DispatchIdealReload(v: Variant, st: Shared, segs: seq<Segment>, order: seq<nat>,
                            net: (nat, nat) -> Attempt, src: seq<bv8>)
    requires forall j :: 0 <= j < |order| ==> order[j] < |segs|
    requires IdealNet(src, segs, net) && Inside(src, segs)
    ensures var r := Dispatch(v, st, segs, order, net);
      && (v == AsWritten ==> r.reload == st.reload)
      && |r.reload| >= |st.reload|
      && (v == Corrected ==>
            (|r.reload| == |st.reload| <==> forall j :: 0 <= j < |order| ==> !Exhausts(SegmentNet(net, order[j]))))
  {
    if v == AsWritten {
      AsWrittenIdealReload(st, segs, order, net, src);
    } else {
      CorrectedIdealReload(st, segs, order, net, src);
      ExhaustedCountZero(order, net);
    }
  }

  /** As written, against the honest server `reload` never changes. */
  lemma {:induction false} AsWrittenIdealReload(st: Shared, segs: seq<Segment>, order: seq<nat>,
                                                net: (nat, nat) -> Attempt, src: seq<bv8>)
    requires forall j :: 0 <= j < |order| ==> order[j] < |segs|
    requires IdealNet(src, segs, net) && Inside(src, segs)
    ensures Dispatch(AsWritten, st, segs, order, net).reload == st.reload
    decreases |order|
  {
    if |order| > 0 {
      var k0 := order[0];
      var st1 := Step(AsWritten, st, segs[k0], SegmentNet(net, k0));
      assert st1.reload == st.reload by {
        assert forall a :: 1 <= a <= MaxAttempts ==> SegmentNet(net, k0)(a) == net(k0, a);
        StepIdeal(AsWritten, st, segs[k0], SegmentNet(net, k0), src);
      }
      assert forall j :: 0 <= j < |order[1..]| ==> order[1..][j] == order[j + 1];
      AsWrittenIdealReload(st1, segs, order[1..], net, src);
      DispatchFirst(AsWritten, st, segs, order, net);
    }
  }

  /** How many of the threads in `order` fail five times. */
  function ExhaustedCount(order: seq<nat>, net: (nat, nat) -> Attempt): nat
    decreases |order|
  {
    if |order| == 0 then 0
    else (if Exhausts(SegmentNet(net, order[0])) then 1 else 0) + ExhaustedCount(order[1..], net)
  }

  /** No thread is counted exactly when none fails five times. */
  lemma {:induction false} ExhaustedCountZero(order: seq<nat>, net: (nat, nat) -> Attempt)
    ensures ExhaustedCount(order, net) == 0 <==> forall j :: 0 <= j < |order| ==> !Exhausts(SegmentNet(net, order[j]))
    decreases |order|
  {
    if |order| > 0 {
      ExhaustedCountZero(order[1..], net);
      if ExhaustedCount(order, net) == 0 {
        forall j | 0 <= j < |order|
          ensures !Exhausts(SegmentNet(net, order[j]))
        {
          if j > 0 {
            assert order[1..][j - 1] == order[j];
          }
        }
      }
    }
  }

  /** Corrected, against the honest server every thread that fails five times
      adds one entry to `reload`. */
  lemma {:induction false} CorrectedIdealReload(st: Shared, segs: seq<Segment>, order: seq<nat>,
                                                net: (nat, nat) -> Attempt, src: seq<bv8>)
    requires forall j :: 0 <= j < |order| ==> order[j] < |segs|
    requires IdealNet(src, segs, net) && Inside(src, segs)
    ensures |Dispatch(Corrected, st, segs, order, net).reload| == |st.reload| + ExhaustedCount(order, net)
    decreases |order|
  {
    if |order| > 0 {
      var k0 := order[0];
      var st1 := Step(Corrected, st, segs[k0], SegmentNet(net, k0));
      assert |st1.reload| == |st.reload| + (if Exhausts(SegmentNet(net, k0)) then 1 else 0) by {
        assert forall a :: 1 <= a <= MaxAttempts ==> SegmentNet(net, k0)(a) == net(k0, a);
        StepIdeal(Corrected, st, segs[k0], SegmentNet(net, k0), src);
      }
      assert forall j :: 0 <= j < |order[1..]| ==> order[1..][j] == order[j + 1];
      CorrectedIdealReload(st1, segs, order[1..], net, src);
      DispatchFirst(Corrected, st, segs, order, net);
    }
  }

  /** The responses of a dictionary whose entries are source slices form a
      consistent set of writes. */
  lemma ValuesConsistent(resp: Dict, src: seq<bv8>)
    requires forall e :: e in resp ==> SliceOf(e.1, src)
    ensures Consistent(Values(resp), src)
  {
    forall k | 0 <= k < |resp|
      ensures SliceOf(Values(resp)[k], src)
    {
      assert resp[k] in resp;
    }
  }

  /** Once every segment's honest reply is stored, the stored responses
      cover the whole resource. */
  lemma StoredRepliesCover(v: Variant, src: seq<bv8>, threads: nat, resp: Dict)
    requires 1 <= threads && 1 <= |src|
    requires var segs := GetOffset(|src|, threads).segments;
      forall k :: 0 <= k < threads ==> HasReply(v, src, segs, resp, k)
    ensures Covering(Values(resp), |src|)
  {
    var segs := GetOffset(|src|, threads).segments;
    var rs := Values(resp);
    forall i | 0 <= i < |src|
      ensures Covered(rs, i)
    {
      var c := CoveringIndex(|src|, threads, i);
      assert HasReply(v, src, segs, resp, c);
      LookupInValues(resp, KeyOf(v, segs[c]));
      var reply := IdealReply(src, segs[c]);
      SegmentsInside(|src|, threads, c);
      IdealReplyIsSlice(src, segs[c]);
      assert Requests(segs[c], i);
      var m :| 0 <= m < |rs| && rs[m] == reply;
      assert Holds(rs[m], i);
    }
  }

  /** With a `Content-Length` of `length` and a positive thread count, `start`
      writes the assembled responses exactly when `reload` ends empty. */
  lemma RunOfLength(v: Variant, length: nat, threads: nat, order: seq<nat>, net: (nat, nat) -> Attempt)
    requires 1 <= threads && IsOrder(order, threads)
    ensures var st := Dispatch(v, Shared([], []), GetOffset(length, threads).segments, order, net);
      Run(v, map[ContentLengthField := Decimal(length)], threads, order, net)
        == if |st.reload| == 0 then Written(WriteFile(Values(st.resp))) else NotWritten(st.reload)
  {
    ParseDecimal(length);
  }

  /** For a non-empty resource the planned pairs are valid ranges inside it. */
  lemma PlanInside(src: seq<bv8>, threads: nat)
    requires 1 <= threads && 1 <= |src|
    ensures Inside(src, GetOffset(|src|, threads).segments)
  {
    var segs := GetOffset(|src|, threads).segments;
    forall k | 0 <= k < |segs|
      ensures segs[k].start < |src| && (segs[k].end.Some? ==> segs[k].start <= segs[k].end.value)
    {
      SegmentsInside(|src|, threads, k);
    }
  }

  /** The threads against a server that honours byte ranges (`IdealNet`),
      from empty shared state, on a
      non-empty resource: when no segment fails five times and segments that
      share a key share a reply, `reload` stays empty and the stored responses
      assemble into the resource; in the corrected variant `reload` stays
      empty exactly when no segment fails five times. */
  lemma DispatchIdeal(v: Variant, src: seq<bv8>, threads: nat, order: seq<nat>, net: (nat, nat) -> Attempt)
    requires 1 <= threads && 1 <= |src| && IsOrder(order, threads)
    requires IdealNet(src, GetOffset(|src|, threads).segments, net)
    requires KeysDetermineReplies(v, src, GetOffset(|src|, threads).segments)
    ensures var st := Dispatch(v, Shared([], []), GetOffset(|src|, threads).segments, order, net);
      && ((forall k :: 0 <= k < threads ==> !Exhausts(SegmentNet(net, k))) ==>
            |st.reload| == 0 && WriteFile(Values(st.resp)) == Complete(src))
      && (v == Corrected ==>
            (|st.reload| == 0 <==> forall k :: 0 <= k < threads ==> !Exhausts(SegmentNet(net, k))))
  {
    var segs := GetOffset(|src|, threads).segments;
    PlanInside(src, threads);
    var st := Dispatch(v, Shared([], []), segs, order, net);
    DispatchIdealResp(v, Shared([], []), segs, order, net, src);
    DispatchIdealReload(v, Shared([], []), segs, order, net, src);
    if forall k :: 0 <= k < threads ==> !Exhausts(SegmentNet(net, k)) {
      forall k | 0 <= k < threads
        ensures HasReply(v, src, segs, st.resp, k)
      {
        assert k in order;
      }
      StoredRepliesCover(v, src, threads, st.resp);
      ValuesConsistent(st.resp, src);
      AssemblyReproducesSource(Values(st.resp), src);
    } else if v == Corrected {
      var k :| 0 <= k < threads && Exhausts(SegmentNet(net, k));
      assert k in order;
    }
  }

  /** As written, against a server that honours byte ranges (`IdealNet`):
      with at least as many bytes as threads, and no segment that fails five
      times, `start` writes exactly the resource, whatever order the threads
      finish in. */
  lemma RunDownloadsResource(src: seq<bv8>, threads: nat, order: seq<nat>, net: (nat, nat) -> Attempt)
    requires 1 <= threads <= |src| && IsOrder(order, threads)
    requires IdealNet(src, GetOffset(|src|, threads).segments, net)
    requires forall k :: 0 <= k < threads ==> !Exhausts(SegmentNet(net, k))
    ensures Run(AsWritten, map[ContentLengthField := Decimal(|src|)], threads, order, net)
         == Written(Complete(src))
  {
    var segs := GetOffset(|src|, threads).segments;
    forall k, k' | 0 <= k < |segs| && 0 <= k' < |segs| && KeyOf(AsWritten, segs[k]) == KeyOf(AsWritten, segs[k'])
      ensures IdealReply(src, segs[k]) == IdealReply(src, segs[k'])
    {
      DecimalInjective(segs[k].start, segs[k'].start);
      if k < k' {
        StartsDistinct(|src|, threads, k, k');
      } else if k' < k {
        StartsDistinct(|src|, threads, k', k);
      }
    }
    DispatchIdeal(AsWritten, src, threads, order, net);
    RunOfLength(AsWritten, |src|, threads, order, net);
  }

  /** Keyed by the whole `Range` value, only equal pairs share a key. */
  lemma CorrectedKeysDetermineReplies(src: seq<bv8>, segs: seq<Segment>)
    ensures KeysDetermineReplies(Corrected, src, segs)
  {
    forall k, k' | 0 <= k < |segs| && 0 <= k' < |segs| && KeyOf(Corrected, segs[k]) == KeyOf(Corrected, segs[k'])
      ensures IdealReply(src, segs[k]) == IdealReply(src, segs[k'])
    {
      RangeValueInjective(segs[k], segs[k']);
    }
  }

  /** Corrected, against a server that honours byte ranges (`IdealNet`): for
      any non-empty resource and any positive thread count, the file is
      written exactly when no segment fails five times, and then it is the
      resource. */
  lemma CorrectedRunDownloadsResource(src: seq<bv8>, threads: nat, order: seq<nat>, net: (nat, nat) -> Attempt)
    requires 1 <= threads && 1 <= |src| && IsOrder(order, threads)
    requires IdealNet(src, GetOffset(|src|, threads).segments, net)
    ensures var r := Run(Corrected, map[ContentLengthField := Decimal(|src|)], threads, order, net);
      && (r.Written? <==> forall k :: 0 <= k < threads ==> !Exhausts(SegmentNet(net, k)))
      && (r.Written? ==> r == Written(Complete(src)))
  {
    CorrectedKeysDetermineReplies(src, GetOffset(|src|, threads).segments);
    DispatchIdeal(Corrected, src, threads, order, net);
    RunOfLength(Corrected, |src|, threads, order, net);
  }

  /** A single response whose body is the source slice at its start writes
      that slice into the empty file. */
  lemma SingleWrite(r: Response, src: seq<bv8>)
    requires StartOf(r) == Some(0) && |r.body| <= |src| && r.body == src[..|r.body|]
    ensures WriteFile([r]) == Complete(src[..|r.body|])
  {
    assert WriteFile([r]) == WriteFrom(WriteAt([], 0, r.body), [r][1..]);
    assert [r][1..] == [];
    assert WriteAt([], 0, r.body) == r.body;
  }

  // ---------------------------------------------------------------------
  // Where the source as written goes wrong

  /** Two bytes cut for three threads: every pair starts at 0. */
  lemma TruncatingPlan()
    ensures GetOffset(2, 3).segments == [Segment(0, Some(0)), Segment(0, Some(0)), Segment(0, None)]
  {
  }

  /** The honest server's one-byte reply to `bytes=0-0`. */
  function ShortReply(src: seq<bv8>): Response {
    IdealReply(src, Segment(0, Some(0)))
  }

  /** As written, a thread of the two-byte, three-thread run that gets its
      honest reply stores it under `"0"`. */
  lemma TruncatingStep(src: seq<bv8>, net: (nat, nat) -> Attempt, st: Shared, k: nat)
    requires |src| == 2 && k < 3
    requires IdealNet(src, GetOffset(2, 3).segments, net) && !Exhausts(SegmentNet(net, k))
    requires st.resp == [] || (|st.resp| == 1 && st.resp[0].0 == "0")
    ensures Step(AsWritten, st, GetOffset(2, 3).segments[k], SegmentNet(net, k))
         == Shared([("0", IdealReply(src, GetOffset(2, 3).segments[k]))], st.reload)
  {
    var segs := GetOffset(2, 3).segments;
    TruncatingPlan();
    PlanInside(src, 3);
    assert Decimal(0) == "0";
    assert forall a :: 1 <= a <= MaxAttempts ==> SegmentNet(net, k)(a) == net(k, a);
    StepIdeal(AsWritten, st, segs[k], SegmentNet(net, k), src);
  }

  /** One more thread of the two-byte, three-thread run replaces the single
      stored reply with its own. */
  lemma TruncatingAdvance(src: seq<bv8>, net: (nat, nat) -> Attempt, order: seq<nat>, st: Shared, i: nat)
    requires |src| == 2 && IsOrder(order, 3) && i < 3
    requires IdealNet(src, GetOffset(2, 3).segments, net)
    requires forall k :: 0 <= k < 3 ==> !Exhausts(SegmentNet(net, k))
    requires st.resp == [] || (|st.resp| == 1 && st.resp[0].0 == "0")
    ensures var segs := GetOffset(2, 3).segments;
      Dispatch(AsWritten, st, segs, order[i..], net)
        == Dispatch(AsWritten, Shared([("0", IdealReply(src, segs[order[i]]))], st.reload), segs, order[i + 1..], net)
  {
    var segs := GetOffset(2, 3).segments;
    assert forall j :: 0 <= j < |order[i..]| ==> order[i..][j] == order[i + j];
    assert order[i..][1..] == order[i + 1..];
    DispatchFirst(AsWritten, st, segs, order[i..], net);
    TruncatingStep(src, net, st, order[i]);
  }

  /** Unless the open-ended pair finishes last, the threads leave only the
      one-byte reply, stored under `"0"`. */
  lemma TruncatingDispatch(src: seq<bv8>, net: (nat, nat) -> Attempt, order: seq<nat>)
    requires |src| == 2 && IsOrder(order, 3) && order[2] != 2
    requires IdealNet(src, GetOffset(2, 3).segments, net)
    requires forall k :: 0 <= k < 3 ==> !Exhausts(SegmentNet(net, k))
    ensures Dispatch(AsWritten, Shared([], []), GetOffset(2, 3).segments, order, net)
         == Shared([("0", ShortReply(src))], [])
  {
    var segs := GetOffset(2, 3).segments;
    var st1 := Shared([("0", IdealReply(src, segs[order[0]]))], []);
    var st2 := Shared([("0", IdealReply(src, segs[order[1]]))], []);
    assert order[0..] == order;
    TruncatingAdvance(src, net, order, Shared([], []), 0);
    TruncatingAdvance(src, net, order, st1, 1);
    TruncatingAdvance(src, net, order, st2, 2);
    assert order[3..] == [];
    TruncatingPlan();
  }

  /** As written, with fewer bytes than threads, all pairs share the key
      `"0"`: for any two-byte resource and any network that delivers the
      honest replies, when the open-ended pair is not the last to finish, a
      one-byte reply replaces its reply and the file written is the first
      byte alone. The corrected variant writes the whole resource. */
  lemma SharedStartKeyTruncates(src: seq<bv8>, net: (nat, nat) -> Attempt, order: seq<nat>)
    requires |src| == 2 && IsOrder(order, 3) && order[2] != 2
    requires IdealNet(src, GetOffset(2, 3).segments, net)
    requires forall k :: 0 <= k < 3 ==> !Exhausts(SegmentNet(net, k))
    ensures Run(AsWritten, map[ContentLengthField := Decimal(|src|)], 3, order, net)
         == Written(Complete(src[..1]))
    ensures Run(Corrected, map[ContentLengthField := Decimal(|src|)], 3, order, net)
         == Written(Complete(src))
  {
    var short := ShortReply(src);
    var st := Dispatch(AsWritten, Shared([], []), GetOffset(|src|, 3).segments, order, net);
    assert st == Shared([("0", short)], []) by {
      TruncatingDispatch(src, net, order);
    }
    assert WriteFile(Values(st.resp)) == Complete(src[..1]) by {
      assert Values(st.resp) == [short];
      IdealReplyIsSlice(src, Segment(0, Some(0)));
      assert |short.body| == 1;
      SingleWrite(short, src);
    }
    RunOfLength(AsWritten, |src|, 3, order, net);
    CorrectedRunDownloadsResource(src, 3, order, net);
  }

  /** Four bytes cut for two threads. */
  lemma HolePlan()
    ensures GetOffset(4, 2).segments == [Segment(0, Some(2)), Segment(2, None)]
  {
  }

  /** The first thread of the four-byte run stores its honest reply. */
  lemma HoleFirstStep(v: Variant, src: seq<bv8>, net: (nat, nat) -> Attempt)
    requires |src| == 4
    requires IdealNet(src, GetOffset(4, 2).segments, net) && !Exhausts(SegmentNet(net, 0))
    ensures Step(v, Shared([], []), Segment(0, Some(2)), SegmentNet(net, 0))
         == Shared([(KeyOf(v, Segment(0, Some(2))), IdealReply(src, Segment(0, Some(2))))], [])
  {
    HolePlan();
    assert forall a :: 1 <= a <= MaxAttempts ==> SegmentNet(net, 0)(a) == net(0, a);
    StepIdeal(v, Shared([], []), Segment(0, Some(2)), SegmentNet(net, 0), src);
  }

  /** The second thread of the four-byte run fails five times: as written it
      changes nothing, corrected it puts its headers in `reload`. */
  lemma HoleSecondStep(v: Variant, src: seq<bv8>, net: (nat, nat) -> Attempt, st: Shared)
    requires |src| == 4 && st.reload == []
    requires IdealNet(src, GetOffset(4, 2).segments, net) && Exhausts(SegmentNet(net, 1))
    ensures Step(v, st, Segment(2, None), SegmentNet(net, 1))
         == Shared(st.resp, if v == AsWritten then [] else [BuildHeaders(Segment(2, None))])
  {
    HolePlan();
    assert forall a :: 1 <= a <= MaxAttempts ==> SegmentNet(net, 1)(a) == net(1, a);
    StepIdeal(v, st, Segment(2, None), SegmentNet(net, 1), src);
  }

  /** Two threads: the second's effect applies to the first's result. */
  lemma DispatchTwo(v: Variant, st: Shared, segs: seq<Segment>, order: seq<nat>,
                    net: (nat, nat) -> Attempt)
    requires |order| == 2 && forall j :: 0 <= j < |order| ==> order[j] < |segs|
    ensures Dispatch(v, st, segs, order, net)
         == Step(v, Step(v, st, segs[order[0]], SegmentNet(net, order[0])), segs[order[1]], SegmentNet(net, order[1]))
  {
    var st1 := Step(v, st, segs[order[0]], SegmentNet(net, order[0]));
    DispatchFirst(v, st, segs, order, net);
    assert order[1..][0] == order[1] && |order[1..]| == 1;
    DispatchFirst(v, st1, segs, order[1..], net);
    assert |order[1..][1..]| == 0;
  }

  /** As written, the first thread stores its reply and the second, failing
      five times, changes nothing; corrected, the second is put in `reload`. */
  lemma HoleDispatch(v: Variant, src: seq<bv8>, net: (nat, nat) -> Attempt, order: seq<nat>)
    requires |src| == 4 && order == [0, 1]
    requires IdealNet(src, GetOffset(4, 2).segments, net)
    requires !Exhausts(SegmentNet(net, 0)) && Exhausts(SegmentNet(net, 1))
    ensures Dispatch(v, Shared([], []), GetOffset(4, 2).segments, order, net)
         == Shared([(KeyOf(v, Segment(0, Some(2))), IdealReply(src, Segment(0, Some(2))))],
                   if v == AsWritten then [] else [BuildHeaders(Segment(2, None))])
  {
    HolePlan();
    var st1 := Shared([(KeyOf(v, Segment(0, Some(2))), IdealReply(src, Segment(0, Some(2))))], []);
    DispatchTwo(v, Shared([], []), GetOffset(4, 2).segments, order, net);
    HoleFirstStep(v, src, net);
    HoleSecondStep(v, src, net, st1);
  }

  /** As written, a segment that fails five times is recorded nowhere: for any
      four-byte resource and any network on which the first segment gets its
      honest reply and every attempt of the second raises, `reload` stays
      empty and the file is written without the last byte. The corrected
      variant writes nothing and keeps the failed segment's headers. */
  lemma ExhaustedSegmentLeavesHole(src: seq<bv8>, net: (nat, nat) -> Attempt)
    requires |src| == 4
    requires IdealNet(src, GetOffset(4, 2).segments, net)
    requires !Exhausts(SegmentNet(net, 0)) && Exhausts(SegmentNet(net, 1))
    ensures Run(AsWritten, map[ContentLengthField := Decimal(|src|)], 2, [0, 1], net)
         == Written(Complete(src[..3]))
    ensures Run(Corrected, map[ContentLengthField := Decimal(|src|)], 2, [0, 1], net)
         == NotWritten([BuildHeaders(Segment(2, None))])
  {
    var order := [0, 1];
    assert IsOrder(order, 2);
    var first := IdealReply(src, Segment(0, Some(2)));
    var st := Dispatch(AsWritten, Shared([], []), GetOffset(|src|, 2).segments, order, net);
    assert st == Shared([(KeyOf(AsWritten, Segment(0, Some(2))), first)], []) by {
      HoleDispatch(AsWritten, src, net, order);
    }
    assert WriteFile(Values(st.resp)) == Complete(src[..3]) by {
      assert Values(st.resp) == [first];
      IdealReplyIsSlice(src, Segment(0, Some(2)));
      assert |first.body| == 3;
      SingleWrite(first, src);
    }
    RunOfLength(AsWritten, |src|, 2, order, net);
    assert Dispatch(Corrected, Shared([], []), GetOffset(|src|, 2).segments, order, net).reload
        == [BuildHeaders(Segment(2, None))] by {
      HoleDispatch(Corrected, src, net, order);
    }
    RunOfLength(Corrected, |src|, 2, order, net);
  }
}

=== FILE: fetch.dfy ===
/**
 One segment's download (`ContentRequest.request_content`). The shared
 `resp` dictionary and `reload` tuple are passed in and returned; the network
 is a function `net` giving the outcome of the n-th `requests.get` attempt
 (1-based): a `RequestException`, or a response with a status code.
 */
module Fetch {
  import opened Text
  import opened Headers

  datatype Response = Response(status: int, headers: map<string, string>, body: seq<bv8>)

  /** What one `requests.get` call produces. */
  datatype Attempt = Raised | Received(response: Response)

  /** A Python dict of responses in insertion order. */
  type Dict = seq<(string, Response)>

  predicate UniqueKeys(d: Dict) {
    forall i, j :: 0 <= i < j < |d| ==> d[i].0 != d[j].0
  }

  function Lookup(d: Dict, key: string): Option<Response> {
    if |d| == 0 then None
    else if d[0].0 == key then Some(d[0].1)
    else Lookup(d[1..], key)
  }

  /** `d[key] = v`: a present key keeps its position and takes the new value,
      a new key goes to the end. */
  function Store(d: Dict, key: string, v: Response): (r: Dict)
    ensures Lookup(r, key) == Some(v)
    ensures forall k :: k != key ==> Lookup(r, k) == Lookup(d, k)
    ensures |r| == if Lookup(d, key).Some? then |d| else |d| + 1
    ensures forall i :: 0 <= i < |d| ==> r[i].0 == d[i].0
    ensures Lookup(d, key).None? ==> r[|d|] == (key, v)
    ensures forall e :: e in r ==> e.1 == v || e in d
  {
    if |d| == 0 then [(key, v)]
    else if d[0].0 == key then
      assert forall e :: e in d[1..] ==> e in d;
      [(key, v)] + d[1..]
    else
      var rest := Store(d[1..], key, v);
      assert forall e :: e in d[1..] ==> e in d;
      [d[0]] + rest
  }

  /** Storing keeps the keys of a dictionary distinct. */
  lemma {:induction false} StoreKeepsUniqueKeys(d: Dict, key: string, v: Response)
    requires UniqueKeys(d)
    ensures UniqueKeys(Store(d, key, v))
  {
    if |d| > 0 {
      UniqueTail(d);
      if d[0].0 == key {
        UniqueCons((key, v), d[1..]);
      } else {
        var rest := Store(d[1..], key, v);
        StoreKeepsUniqueKeys(d[1..], key, v);
        forall i | 0 <= i < |rest|
          ensures rest[i].0 != d[0].0
        {
          if i < |d| - 1 {
            assert rest[i].0 == d[i + 1].0;
          } else {
            LookupAbsent(d[1..], key);
          }
        }
        UniqueCons(d[0], rest);
      }
    }
  }

  lemma UniqueTail(d: Dict)
    requires |d| > 0 && UniqueKeys(d)
    ensures UniqueKeys(d[1..]) && forall i :: 0 <= i < |d| - 1 ==> d[1..][i].0 != d[0].0
  {
    forall i, j | 0 <= i < j < |d| - 1
      ensures d[1..][i].0 != d[1..][j].0
    {
      assert d[1..][i] == d[i + 1] && d[1..][j] == d[j + 1];
    }
  }

  lemma UniqueCons(x: (string, Response), rest: Dict)
    requires UniqueKeys(rest) && forall i :: 0 <= i < |rest| ==> rest[i].0 != x.0
    ensures UniqueKeys([x] + rest)
  {
    var r := [x] + rest;
    forall i, j | 0 <= i < j < |r|
      ensures r[i].0 != r[j].0
    {
      assert r[j] == rest[j - 1];
      if i > 0 {
        assert r[i] == rest[i - 1];
      }
    }
  }

  /** A key that is not found is the key of no entry. */
  lemma {:induction false} LookupAbsent(d: Dict, key: string)
    requires Lookup(d, key).None?
    ensures forall i :: 0 <= i < |d| ==> d[i].0 != key
  {
    if |d| > 0 {
      LookupAbsent(d[1..], key);
      assert forall i :: 1 <= i < |d| ==> d[i] == d[1..][i - 1];
    }
  }

  /** `resp.values()` in insertion order. */
  function Values(d: Dict): (vs: seq<Response>)
    ensures |vs| == |d|
    ensures forall i :: 0 <= i < |d| ==> vs[i] == d[i].1
  {
    if |d| == 0 then [] else [d[0].1] + Values(d[1..])
  }

  /** A value found under some key is one of the dictionary's values. */
  lemma {:induction false} LookupInValues(d: Dict, key: string)
    requires Lookup(d, key).Some?
    ensures Lookup(d, key).value in Values(d)
  {
    if d[0].0 != key {
      LookupInValues(d[1..], key);
      assert Values(d) == [d[0].1] + Values(d[1..]);
    }
  }

  const MaxAttempts: nat := 5
  const PartialContent: int := 206

  /** Seconds slept after the failed attempt `attempt`. */
  function Backoff(attempt: nat): nat {
    attempt * 3
  }

  /** The state the threads share: `self.resp` and `self.reload`. */
  datatype Shared = Shared(resp: Dict, reload: seq<RequestHeaders>)

  /** How `request_content` returned: a 206 stored, another status put in
      `reload`, five transport errors, or the `IndexError` of a `Range`
      value without `=` (raised before any request is sent). */
  datatype Ending = Stored | Reloaded | Exhausted | Crashed

  datatype Fetched = Fetched(after: Shared, attempts: nat, sleeps: seq<nat>, ending: Ending)

  /** The retry loop from attempt `attempt` on, with the sleeps of the failed
      attempts before it in `slept`. */
  function Retry(before: Shared, headers: RequestHeaders, key: string, net: nat -> Attempt,
                 attempt: nat, slept: seq<nat>): (r: Fetched)
    requires 1 <= attempt <= MaxAttempts + 1
    requires |slept| == attempt - 1
    requires forall j :: 0 <= j < |slept| ==> slept[j] == Backoff(j + 1)
    ensures r.ending != Crashed
    ensures attempt <= r.attempts + 1 && 1 <= r.attempts <= MaxAttempts
    ensures forall n :: attempt <= n < r.attempts ==> net(n) == Raised
    ensures r.ending == Exhausted <==> forall n :: attempt <= n <= MaxAttempts ==> net(n) == Raised
    ensures r.ending == Exhausted ==> r.after == before && r.attempts == MaxAttempts
    ensures r.ending != Exhausted ==> net(r.attempts).Received?
    ensures r.ending == Stored <==> r.ending != Exhausted && net(r.attempts).response.status == PartialContent
    ensures r.ending == Stored ==>
      r.after == Shared(Store(before.resp, key, net(r.attempts).response), before.reload)
    ensures r.ending == Reloaded ==> r.after == Shared(before.resp, before.reload + [headers])
    ensures |r.sleeps| == (if r.ending == Exhausted then MaxAttempts else r.attempts - 1)
    ensures forall j :: 0 <= j < |r.sleeps| ==> r.sleeps[j] == Backoff(j + 1)
    decreases MaxAttempts + 1 - attempt
  {
    if attempt > MaxAttempts then Fetched(before, MaxAttempts, slept, Exhausted)
    else match net(attempt)
      case Raised => Retry(before, headers, key, net, attempt + 1, slept + [Backoff(attempt)])
      case Received(response) =>
        if response.status == PartialContent then
          Fetched(Shared(Store(before.resp, key, response), before.reload), attempt, slept, Stored)
        else
          Fetched(Shared(before.resp, before.reload + [headers]), attempt, slept, Reloaded)
  }

  /** `request_content(headers)`: at most five attempts; the first response
      received ends the loop, whatever its status. */
  function RequestContent(before: Shared, headers: RequestHeaders, net: nat -> Attempt): (r: Fetched)
    ensures r.ending == Crashed <==> '=' !in headers.range
    ensures r.ending == Crashed ==> r.after == before && r.attempts == 0 && r.sleeps == []
    ensures r.ending != Crashed ==> 1 <= r.attempts <= MaxAttempts
    ensures forall n :: 1 <= n < r.attempts ==> net(n) == Raised
    ensures r.ending == Exhausted <==>
      '=' in headers.range && forall n :: 1 <= n <= MaxAttempts ==> net(n) == Raised
    ensures r.ending == Exhausted ==> r.after == before && r.attempts == MaxAttempts
    ensures r.ending in {Stored, Reloaded} ==> net(r.attempts).Received?
    ensures r.ending == Stored <==>
      r.ending in {Stored, Reloaded} && net(r.attempts).response.status == PartialContent
    ensures r.ending == Stored ==>
      r.after == Shared(Store(before.resp, RangeKey(headers.range).value, net(r.attempts).response),
                        before.reload)
    ensures r.ending == Reloaded ==> r.after == Shared(before.resp, before.reload + [headers])
    ensures |r.sleeps| == match r.ending
      case Exhausted => MaxAttempts
      case Crashed => 0
      case _ => r.attempts - 1
    ensures forall j :: 0 <= j < |r.sleeps| ==> r.sleeps[j] == Backoff(j + 1)
  {
    match RangeKey(headers.range)
    case None => Fetched(before, 0, [], Crashed)
    case Some(key) => Retry(before, headers, key, net, 1, [])
  }

  /** `request_content` as evidently intended: the response is stored under
      the whole `Range` value (so segments with equal starts do not replace
      one another), and a segment that fails five times is put in `reload`
      like a rejected one, so that `start` does not write a file with a hole. */
  function RequestContentCorrected(before: Shared, headers: RequestHeaders, net: nat -> Attempt): (r: Fetched)
    ensures 1 <= r.attempts <= MaxAttempts && r.ending != Crashed
    ensures forall n :: 1 <= n < r.attempts ==> net(n) == Raised
    ensures r.ending == Exhausted <==> forall n :: 1 <= n <= MaxAttempts ==> net(n) == Raised
    ensures r.ending == Exhausted ==> r.after == Shared(before.resp, before.reload + [headers])
    ensures r.ending != Exhausted ==> net(r.attempts).Received?
    ensures r.ending == Stored <==>
      r.ending != Exhausted && net(r.attempts).response.status == PartialContent
    ensures r.ending == Stored ==>
      r.after == Shared(Store(before.resp, headers.range, net(r.attempts).response), before.reload)
    ensures r.ending == Reloaded ==> r.after == Shared(before.resp, before.reload + [headers])
  {
    var f := Retry(before, headers, headers.range, net, 1, []);
    if f.ending == Exhausted then f.(after := Shared(f.after.resp, f.after.reload + [headers]))
    else f
  }
}

=== FILE: headers.dfy ===
/**
 Header text of the downloader: the `Range` request header built in `start`
 (`'Bytes={}-{}'.format(start, end)`), the key `request_content` recovers from
 it, and the start offset `write_file` recovers from a `Content-Range`
 response header (`bytes first-last/complete-length`, section 14.4 of RFC 9110).
 */
module Headers {
  import opened Text
  import opened Plan

  /** The request headers of one segment: the `Range` value and `Accept-Encoding`. */
  datatype RequestHeaders = RequestHeaders(range: string, acceptEncoding: string)

  const AnyEncoding: string := "*"

  /** `'Bytes={}-{}'.format(*item)`; the empty end of the last pair prints as nothing. */
  function RangeValue(s: Segment): string {
    "Bytes=" + Decimal(s.start) + "-" + (if s.end.Some? then Decimal(s.end.value) else "")
  }

  /** The header dictionary `start` builds for one planned pair. */
  function BuildHeaders(s: Segment): RequestHeaders {
    RequestHeaders(RangeValue(s), AnyEncoding)
  }

  /** `headers['Range'].split('=')[1].split('-')[0]`: the start offset as text.
      `None` stands for the `IndexError` raised when there is no `=`. */
  function RangeKey(range: string): (key: Option<string>)
    ensures key.Some? <==> '=' in range
    ensures key.Some? ==> '-' !in key.value && '=' !in key.value
  {
    var parts := Split(range, '=');
    if |parts| < 2 then
      assert Join(parts, '=') == parts[0];
      None
    else
      assert '=' in range by {
        assert Join(parts, '=') == parts[0] + ['='] + Join(parts[1..], '=');
        assert range[|parts[0]|] == '=';
      }
      Some(Split(parts[1], '-')[0])
  }

  /** `int(value.split('-')[0].split(' ')[-1])`; `None` stands for the
      `ValueError` of `int` on text that is not a number. */
  function ContentRangeStart(value: string): Option<nat> {
    ParseNat(Last(Split(Split(value, '-')[0], ' ')))
  }

  /** The `Content-Range` value a server sends with a 206 reply. */
  function ContentRangeValue(first: nat, last: nat, complete: nat): string {
    "bytes " + Decimal(first) + "-" + Decimal(last) + "/" + Decimal(complete)
  }

  /** The key recovered from a built `Range` header is the decimal text of the
      pair's start, for the closed and the open-ended form alike; it reads back
      as the start. */
  lemma RangeKeyRoundTrip(s: Segment)
    ensures RangeKey(RangeValue(s)) == Some(Decimal(s.start))
    ensures ParseNat(RangeKey(RangeValue(s)).value) == Some(s.start)
  {
    RangeValueParts(s);
    ParseDecimal(s.start);
  }

  /** Any `Content-Range` value `bytes S-...` yields `S`, whatever follows the dash. */
  lemma {:induction false} ContentRangeStartOf(first: nat, rest: string)
    ensures ContentRangeStart("bytes " + Decimal(first) + "-" + rest) == Some(first)
  {
    var d := Decimal(first);
    DecimalHasNoPunctuation(first);
    var head := "bytes " + d;
    assert '-' !in head by {
      assert forall k :: 0 <= k < |head| ==> head[k] == (if k < 6 then "bytes "[k] else d[k - 6]);
    }
    assert "bytes " + d + "-" + rest == head + ['-'] + rest;
    SplitAtFirst(head, rest, '-');
    assert head == "bytes" + [' '] + d;
    SplitAtFirst("bytes", d, ' ');
    SplitWithoutSeparator(d, ' ');
    ParseDecimal(first);
  }

  /** A complete `bytes S-E/T` header yields `S`. */
  lemma ContentRangeRoundTrip(first: nat, last: nat, complete: nat)
    ensures ContentRangeStart(ContentRangeValue(first, last, complete)) == Some(first)
  {
    var rest := Decimal(last) + "/" + Decimal(complete);
    assert ContentRangeValue(first, last, complete) == "bytes " + Decimal(first) + "-" + rest;
    ContentRangeStartOf(first, rest);
  }

  /** The text after `=` in a built `Range` value splits on `-` into the
      start's decimal text and the end's (empty for the open-ended pair). */
  lemma {:induction false} RangeValueParts(s: Segment)
    ensures var parts := Split(RangeValue(s), '=');
      && |parts| == 2
      && Split(parts[1], '-') == [Decimal(s.start), if s.end.Some? then Decimal(s.end.value) else ""]
  {
    var d := Decimal(s.start);
    var e := if s.end.Some? then Decimal(s.end.value) else "";
    DecimalHasNoPunctuation(s.start);
    if s.end.Some? {
      DecimalHasNoPunctuation(s.end.value);
    }
    var tail := d + ['-'] + e;
    assert RangeValue(s) == "Bytes" + ['='] + tail;
    SplitTwo("Bytes", tail, '=');
    SplitTwo(d, e, '-');
  }

  /** Different pairs give different `Range` values. */
  lemma RangeValueInjective(s: Segment, s': Segment)
    requires RangeValue(s) == RangeValue(s')
    ensures s == s'
  {
    RangeValueParts(s);
    RangeValueParts(s');
    DecimalInjective(s.start, s'.start);
    if s.end.Some? && s'.end.Some? {
      DecimalInjective(s.end.value, s'.end.value);
    }
  }
}

=== FILE: plan.dfy ===
/**
 Range planning (`ContentRequest.get_offset`): the content length is cut into
 one segment per thread. Every segment but the last carries an explicit end,
 the last one is open-ended and absorbs the remainder of the division.
 The pair's second component is used verbatim as the last-byte-pos of an HTTP
 byte range, which is inclusive (section 14.1.2 of RFC 9110).
 */
module Plan {
  import opened Text

  /** One planned pair `(start, end)`; `end == None` is the source's `''`. */
  datatype Segment = Segment(start: nat, end: Option<nat>)

  /** `get_offset` either yields its pairs or raises `ZeroDivisionError`
      (a thread count of zero). */
  datatype Planned = Planned(segments: seq<Segment>) | DivisionByZero

  /** `int(content_length / threads)` for a positive thread count. */
  function Offset(length: nat, threads: nat): nat
    requires threads > 0
  {
    length / threads
  }

  /** The offset is the largest number whose product with the thread count
      does not exceed the content length. */
  lemma OffsetIsFloor(length: nat, threads: nat, m: nat)
    requires threads > 0
    ensures var o := Offset(length, threads);
      && o * threads <= length < o * threads + threads
      && (m * threads <= length ==> m <= o)
  {
    var o := Offset(length, threads);
    assert length == o * threads + length % threads;
    assert (o + 1) * threads == o * threads + threads;
    if m > o {
      MultiplyMonotone(o + 1, m, threads);
    }
  }

  /** Pairs `index .. threads-1` of the plan, built one at a time. */
  function SegmentsFrom(offset: nat, threads: nat, index: nat): (segs: seq<Segment>)
    requires index <= threads
    ensures |segs| == threads - index
    ensures forall k :: 0 <= k < |segs| ==> segs[k].start == (index + k) * offset
    ensures forall k :: 0 <= k < |segs| ==>
      (index + k < threads - 1 <==> segs[k].end.Some?)
    ensures forall k :: 0 <= k < |segs| && segs[k].end.Some? ==>
      segs[k].end.value == (index + k + 1) * offset
    decreases threads - index
  {
    if index == threads then []
    else
      var here := if index < threads - 1 then Segment(index * offset, Some((index + 1) * offset))
                  else Segment(index * offset, None);
      [here] + SegmentsFrom(offset, threads, index + 1)
  }

  /** `get_offset` for a content length and a thread count. */
  function GetOffset(length: nat, threads: int): (r: Planned)
    ensures threads == 0 <==> r.DivisionByZero?
    ensures threads < 0 ==> r == Planned([])
    ensures threads > 0 ==> r.Planned? && |r.segments| == threads
  {
    if threads == 0 then DivisionByZero
    else if threads < 0 then Planned([])
    else Planned(SegmentsFrom(Offset(length, threads), threads, 0))
  }

  /** Byte `b` lies in the inclusive range the segment's header asks for. */
  predicate Requests(s: Segment, b: int) {
    s.start <= b && (s.end.None? || b <= s.end.value)
  }

  /** Pair `i` below `threads - 1` is `(i * offset, (i + 1) * offset)`. */
  lemma {:induction false} ClosedSegments(length: nat, threads: nat, i: nat)
    requires 0 <= i < threads - 1
    ensures var segs := GetOffset(length, threads).segments;
      segs[i] == Segment(i * Offset(length, threads), Some((i + 1) * Offset(length, threads)))
  {
  }

  /** The last pair is open-ended, starts no later than the content length,
      and spans `offset + length mod threads` bytes. */
  lemma {:induction false} LastSegmentAbsorbsRemainder(length: nat, threads: nat)
    requires threads > 0
    ensures var segs := GetOffset(length, threads).segments;
      var o := Offset(length, threads);
      && segs[threads - 1] == Segment((threads - 1) * o, None)
      && segs[threads - 1].start <= length
      && length - segs[threads - 1].start == o + length % threads
  {
    var o := Offset(length, threads);
    assert length == threads * o + length % threads;
    assert (threads - 1) * o == threads * o - o;
  }

  /** Each closed end is the next start: neighbouring requests meet. */
  lemma {:induction false} NeighboursMeet(length: nat, threads: nat, i: nat)
    requires 0 <= i < threads - 1
    ensures var segs := GetOffset(length, threads).segments;
      segs[i].end == Some(segs[i + 1].start)
  {
  }

  /** Because range ends are inclusive, neighbouring requests share exactly
      one byte: the boundary `end_i == start_(i+1)`. */
  lemma {:induction false} NeighboursShareOneByte(length: nat, threads: nat, i: nat, b: int)
    requires 0 <= i < threads - 1
    ensures var segs := GetOffset(length, threads).segments;
      Requests(segs[i], b) && Requests(segs[i + 1], b) <==> b == segs[i + 1].start
  {
    var segs := GetOffset(length, threads).segments;
    var o := Offset(length, threads);
    assert segs[i].start == i * o && segs[i + 1].start == (i + 1) * o;
    assert (i + 1) * o == i * o + o;
    if segs[i + 1].end.Some? {
      assert segs[i + 1].end.value == (i + 2) * o;
      assert (i + 2) * o == (i + 1) * o + o;
    }
  }

  /** When the offset is positive, segments that are not neighbours request
      no common byte. */
  lemma {:induction false} DistantSegmentsDisjoint(length: nat, threads: nat, i: nat, j: nat, b: int)
    requires 0 <= i && i + 1 < j < threads && Offset(length, threads) > 0
    ensures var segs := GetOffset(length, threads).segments;
      !(Requests(segs[i], b) && Requests(segs[j], b))
  {
    var segs := GetOffset(length, threads).segments;
    var o := Offset(length, threads);
    assert segs[i].end == Some((i + 1) * o) && segs[j].start == j * o;
    MultiplyStrict(i + 1, j, o);
  }

  /** Every byte of `[0, length)` is requested by some segment. */
  lemma {:induction false} PlanCoversContent(length: nat, threads: nat, b: nat)
    requires threads > 0 && b < length
    ensures var segs := GetOffset(length, threads).segments;
      exists i :: 0 <= i < threads && Requests(segs[i], b)
  {
    var segs := GetOffset(length, threads).segments;
    var i := CoveringIndex(length, threads, b);
    assert Requests(segs[i], b);
  }

  /** The index of the segment whose own share `[start, next start)` holds `b`. */
  function CoveringIndex(length: nat, threads: nat, b: nat): (i: nat)
    requires threads > 0 && b < length
    ensures i < threads
    ensures i * Offset(length, threads) <= b
    ensures i < threads - 1 ==> b < (i + 1) * Offset(length, threads)
  {
    var o := Offset(length, threads);
    if o == 0 then threads - 1
    else
      var q := b / o;
      assert q * o <= b < q * o + o;
      assert (q + 1) * o == q * o + o;
      if q < threads - 1 then q
      else
        assert (threads - 1) * o <= q * o by {
          MultiplyMonotone(threads - 1, q, o);
        }
        threads - 1
  }

  lemma MultiplyStrict(a: nat, b: nat, c: nat)
    requires a < b && c > 0
    ensures a * c < b * c
  {
    assert b * c == a * c + (b - a) * c;
  }

  lemma MultiplyMonotone(a: nat, b: nat, c: nat)
    requires a <= b
    ensures a * c <= b * c
  {
  }

  /** For a non-empty resource every pair starts inside it and no closed pair
      ends before it starts. */
  lemma SegmentsInside(length: nat, threads: nat, k: nat)
    requires length >= 1 && k < threads
    ensures var s := GetOffset(length, threads).segments[k];
      s.start < length && (s.end.Some? ==> s.start <= s.end.value)
  {
    var o := Offset(length, threads);
    LastSegmentAbsorbsRemainder(length, threads);
    MultiplyMonotone(k, threads - 1, o);
    MultiplyMonotone(k, k + 1, o);
    assert length == threads * o + length % threads;
  }

  /** When there are at least as many bytes as threads, no two pairs share a
      start. */
  lemma StartsDistinct(length: nat, threads: nat, i: nat, j: nat)
    requires 1 <= threads <= length && i < j < threads
    ensures var segs := GetOffset(length, threads).segments;
      segs[i].start < segs[j].start
  {
    var o := Offset(length, threads);
    assert o >= 1 by {
      assert length == threads * o + length % threads;
    }
    assert j * o - i * o == (j - i) * o;
  }
}

=== FILE: server.dfy ===
/**
 A server that honours byte-range requests, used to state what a correct
 download produces. A `Range` value `bytes=first-last` asks for the bytes
 `first..last` inclusive; `last` beyond the end is clamped to the last byte
 and an open end means "to the end" (section 14.1.2 of RFC 9110). A range
 that starts at or after the end cannot be satisfied and gets 416 (section
 15.5.17); a range whose last position is before its first is invalid and
 the header is ignored, giving 200 with the whole content (section 14.2).
 A 206 reply carries `Content-Range: bytes first-last/length` (section 14.4).
 Every reply is in the identity coding: the `Accept-Encoding: *` the client
 sends would also allow a compressed body (section 12.5.3), which is not
 modelled.
 */
module Server {
  import opened Text
  import opened Plan
  import opened Headers
  import opened Fetch
  import opened Assemble

  function IdealReply(src: seq<bv8>, seg: Segment): Response {
    var length := |src|;
    if seg.end.Some? && seg.end.value < seg.start then Response(200, map[], src)
    else if seg.start >= length then
      Response(416, map[ContentRangeField := "bytes */" + Decimal(length)], [])
    else
      var last := if seg.end.Some? && seg.end.value < length - 1 then seg.end.value else length - 1;
      Response(PartialContent, map[ContentRangeField := ContentRangeValue(seg.start, last, length)],
               src[seg.start..last + 1])
  }

  /** A valid pair is answered with 206 exactly when it starts inside the
      content; the reply's body is then the source slice at the pair's start,
      and it holds exactly the requested bytes that exist. */
  lemma IdealReplyIsSlice(src: seq<bv8>, seg: Segment)
    requires seg.end.Some? ==> seg.start <= seg.end.value
    ensures var r := IdealReply(src, seg);
      && (r.status == PartialContent <==> seg.start < |src|)
      && (seg.start < |src| ==>
            && SliceOf(r, src)
            && StartOf(r) == Some(seg.start)
            && forall i :: Holds(r, i) <==> Requests(seg, i) && i < |src|)
  {
    if seg.start < |src| {
      var last := if seg.end.Some? && seg.end.value < |src| - 1 then seg.end.value else |src| - 1;
      ContentRangeRoundTrip(seg.start, last, |src|);
    }
  }
}

=== FILE: text.dfy ===
/**
 Text helpers with the meaning of the Python string operations the downloader
 relies on: `str.split(sep)` with a one-character separator, indexing the last
 piece (`[-1]`), `'{}'.format(n)` for a natural number, and `int(text)`.
 */
module Text {

  datatype Option<+T> = None | Some(value: T)

  /** Glue `parts` back together with `c` between neighbours (Python's `c.join`). */
  function Join(parts: seq<string>, c: char): string
    requires |parts| >= 1
  {
    if |parts| == 1 then parts[0] else parts[0] + [c] + Join(parts[1..], c)
  }

  /** Python's `s.split(c)`: never empty, pieces keep every character except the
      separators, and consecutive separators give empty pieces. */
  function Split(s: string, c: char): (parts: seq<string>)
    ensures |parts| >= 1
    ensures Join(parts, c) == s
    ensures forall k :: 0 <= k < |parts| ==> c !in parts[k]
  {
    if |s| == 0 then [""]
    else
      var rest := Split(s[1..], c);
      if s[0] == c then
        assert Join([""] + rest, c) == [c] + Join(rest, c) by {
          assert ([""] + rest)[1..] == rest;
        }
        [""] + rest
      else
        var parts := [[s[0]] + rest[0]] + rest[1..];
        assert Join(parts, c) == [s[0]] + Join(rest, c) by {
          if |rest| > 1 {
            assert parts[1..] == rest[1..];
          }
        }
        assert s == [s[0]] + s[1..];
        parts
  }

  /** The last piece, Python's `parts[-1]`. */
  function Last(parts: seq<string>): string
    requires |parts| >= 1
  {
    parts[|parts| - 1]
  }

  /** A string without the separator is one piece. */
  lemma {:induction false} SplitWithoutSeparator(s: string, c: char)
    requires c !in s
    ensures Split(s, c) == [s]
  {
    if |s| > 0 {
      assert c !in s[1..];
      SplitWithoutSeparator(s[1..], c);
    }
  }

  /** The first separator ends the first piece and the rest is split on its own. */
  lemma {:induction false} SplitAtFirst(a: string, b: string, c: char)
    requires c !in a
    ensures Split(a + [c] + b, c) == [a] + Split(b, c)
  {
    var s := a + [c] + b;
    if |a| == 0 {
      assert s[1..] == b;
    } else {
      assert s[1..] == a[1..] + [c] + b;
      assert c !in a[1..];
      SplitAtFirst(a[1..], b, c);
      assert [a[0]] + a[1..] == a;
    }
  }

  /** One separator between two pieces without it splits into those two. */
  lemma SplitTwo(a: string, b: string, c: char)
    requires c !in a && c !in b
    ensures Split(a + [c] + b, c) == [a, b]
  {
    SplitAtFirst(a, b, c);
    SplitWithoutSeparator(b, c);
  }

  /** The last piece is the text after the last separator: a suffix of `s`
      without `c`, preceded by `c` unless it is the whole of `s`. */
  lemma {:induction false} LastPieceIsSuffix(s: string, c: char)
    ensures var n := Last(Split(s, c));
      && |n| <= |s|
      && s[|s| - |n|..] == n
      && c !in n
      && (|n| == |s| || s[|s| - |n| - 1] == c)
  {
    if |s| > 0 {
      LastPieceIsSuffix(s[1..], c);
      var rest := Split(s[1..], c);
      if s[0] != c && |rest| == 1 {
        assert Last(Split(s, c)) == [s[0]] + rest[0];
        assert s == [s[0]] + s[1..];
      }
    }
  }

  predicate IsDigit(ch: char) {
    '0' <= ch <= '9'
  }

  predicate AllDigits(s: string) {
    forall k :: 0 <= k < |s| ==> IsDigit(s[k])
  }

  function DigitChar(d: nat): (ch: char)
    requires d < 10
    ensures IsDigit(ch)
  {
    ('0' as int + d) as char
  }

  function DigitValue(ch: char): nat
    requires IsDigit(ch)
  {
    (ch as int - '0' as int) as nat
  }

  /** Decimal text of `n`, as `'{}'.format(n)` prints it. */
  function Decimal(n: nat): (s: string)
    ensures |s| >= 1 && AllDigits(s)
    ensures s[0] == '0' ==> n == 0
    decreases n
  {
    if n < 10 then [DigitChar(n)] else Decimal(n / 10) + [DigitChar(n % 10)]
  }

  /** Value of a string of decimal digits. */
  function DigitsValue(s: string): nat
    requires AllDigits(s)
  {
    if |s| == 0 then 0
    else DigitsValue(s[..|s| - 1]) * 10 + DigitValue(s[|s| - 1])
  }

  /** Python's `int(s)` restricted to ASCII digits: `None` stands for the
      `ValueError` raised on empty or non-numeric text. */
  function ParseNat(s: string): Option<nat> {
    if |s| > 0 && AllDigits(s) then Some(DigitsValue(s)) else None
  }

  /** Printing and parsing a natural number are inverse. */
  lemma {:induction false} ParseDecimal(n: nat)
    ensures ParseNat(Decimal(n)) == Some(n)
    decreases n
  {
    var s := Decimal(n);
    if n < 10 {
      assert s == [DigitChar(n)];
      assert s[..|s| - 1] == [];
      assert DigitsValue(s[..|s| - 1]) == 0;
      assert DigitValue(s[0]) == n;
    } else {
      ParseDecimal(n / 10);
      assert s[..|s| - 1] == Decimal(n / 10);
      assert DigitValue(DigitChar(n % 10)) == n % 10;
    }
  }

  /** Different numbers print differently. */
  lemma DecimalInjective(m: nat, n: nat)
    requires Decimal(m) == Decimal(n)
    ensures m == n
  {
    ParseDecimal(m);
    ParseDecimal(n);
  }

  /** Decimal text never holds a separator the header parsers split on. */
  lemma DecimalHasNoPunctuation(n: nat)
    ensures '-' !in Decimal(n) && '=' !in Decimal(n) && ' ' !in Decimal(n)
      && '/' !in Decimal(n)
  {
  }
}

=== FILE: transfer.dfy ===
/**
 The coordinator (`ContentRequest.__init__` and `ContentRequest.start`):
 the destination name, the content length read from the `HEAD` reply, one
 `request_content` per planned pair, and the all-or-nothing decision on
 `reload` before `write_file`.

 The threads are modelled by their completion order: `order` lists the
 segment indices in the order their `request_content` calls take effect on
 the shared `resp` and `reload`. `net(k, a)` is what the `a`-th attempt of
 segment `k` gets from the network.
 */
module Transfer {
  import opened Text
  import opened Plan
  import opened Headers
  import opened Fetch
  import opened Assemble

  const ContentLengthField: string := "Content-Length"

  /** `path + url.split('/')[-1]`. */
  function FileName(path: string, url: string): string {
    path + Last(Split(url, '/'))
  }

  /** The destination is `path` followed by the url's text after its last `/`
      (the whole url when it has none). */
  lemma FileNameIsLastComponent(path: string, url: string)
    ensures var f := FileName(path, url); var name := f[|path|..];
      && |path| <= |f| && f[..|path|] == path
      && |name| <= |url| && url[|url| - |name|..] == name
      && '/' !in name
      && (|name| == |url| || url[|url| - |name| - 1] == '/')
  {
    LastPieceIsSuffix(url, '/');
    var f := FileName(path, url);
    assert f[|path|..] == Last(Split(url, '/'));
  }

  /** Why `start` returned. `HeadFailed` is the `KeyError`/`ValueError` of a
      missing or non-numeric `Content-Length`, `PlanFailed` the
      `ZeroDivisionError` of zero threads. */
  datatype Outcome =
    | HeadFailed
    | PlanFailed
    | Written(result: WriteResult)
    | NotWritten(reload: seq<RequestHeaders>)

  /** The source as written, or with the fixes of `RequestContentCorrected`. */
  datatype Variant = AsWritten | Corrected

  /** Number of pairs `get_offset` yields for a nonzero thread count. */
  function Count(threads: int): nat {
    if threads > 0 then threads else 0
  }

  /** `order` is a completion order of `n` threads: each index once. */
  predicate IsOrder(order: seq<nat>, n: nat) {
    && |order| == n
    && (forall j :: 0 <= j < |order| ==> order[j] < n)
    && (forall k :: 0 <= k < n ==> k in order)
  }

  /** The attempts of segment `k`. */
  function SegmentNet(net: (nat, nat) -> Attempt, k: nat): nat -> Attempt {
    (a: nat) => net(k, a)
  }

  /** The effect of one thread on the shared state. */
  function Step(v: Variant, st: Shared, seg: Segment, n: nat -> Attempt): Shared {
    match v
    case AsWritten => RequestContent(st, BuildHeaders(seg), n).after
    case Corrected => RequestContentCorrected(st, BuildHeaders(seg), n).after
  }

  /** The threads' effects, in completion order. */
  function Dispatch(v: Variant, st: Shared, segs: seq<Segment>, order: seq<nat>,
                    net: (nat, nat) -> Attempt): Shared
    requires forall j :: 0 <= j < |order| ==> order[j] < |segs|
    decreases |order|
  {
    if |order| == 0 then st
    else Dispatch(v, Step(v, st, segs[order[0]], SegmentNet(net, order[0])), segs, order[1..], net)
  }

  /** The threads' effects are the first one's followed by the others'. */
  lemma DispatchFirst(v: Variant, st: Shared, segs: seq<Segment>, order: seq<nat>,
                      net: (nat, nat) -> Attempt)
    requires 1 <= |order| && forall j :: 0 <= j < |order| ==> order[j] < |segs|
    ensures Dispatch(v, st, segs, order, net)
         == Dispatch(v, Step(v, st, segs[order[0]], SegmentNet(net, order[0])), segs, order[1..], net)
  {
  }

  /** One thread keeps the keys of `resp` distinct. */
  lemma StepKeepsUniqueKeys(v: Variant, st: Shared, seg: Segment, n: nat -> Attempt)
    requires UniqueKeys(st.resp)
    ensures UniqueKeys(Step(v, st, seg, n).resp)
  {
    var h := BuildHeaders(seg);
    match v
    case AsWritten =>
      var r := RequestContent(st, h, n);
      if r.ending == Stored {
        StoreKeepsUniqueKeys(st.resp, RangeKey(h.range).value, n(r.attempts).response);
      }
    case Corrected =>
      var r := RequestContentCorrected(st, h, n);
      if r.ending == Stored {
        StoreKeepsUniqueKeys(st.resp, h.range, n(r.attempts).response);
      }
  }

  /** Whatever the completion order, the threads keep the keys of `resp`
      distinct: it stays a dictionary. */
  lemma {:induction false} DispatchKeepsUniqueKeys(v: Variant, st: Shared, segs: seq<Segment>, order: seq<nat>,
                                                   net: (nat, nat) -> Attempt)
    requires forall j :: 0 <= j < |order| ==> order[j] < |segs|
    requires UniqueKeys(st.resp)
    ensures UniqueKeys(Dispatch(v, st, segs, order, net).resp)
    decreases |order|
  {
    if |order| > 0 {
      var st1 := Step(v, st, segs[order[0]], SegmentNet(net, order[0]));
      StepKeepsUniqueKeys(v, st, segs[order[0]], SegmentNet(net, order[0]));
      assert forall j :: 0 <= j < |order[1..]| ==> order[1..][j] == order[j + 1];
      DispatchKeepsUniqueKeys(v, st1, segs, order[1..], net);
      DispatchFirst(v, st, segs, order, net);
    }
  }

  /** `start()`: plan, fetch every segment, and write the file only when
      `reload` is empty. */
  function Run(v: Variant, head: map<string, string>, threads: int, order: seq<nat>,
               net: (nat, nat) -> Attempt): Outcome
    requires IsOrder(order, Count(threads))
  {
    if ContentLengthField !in head then HeadFailed
    else match ParseNat(head[ContentLengthField])
      case None => HeadFailed
      case Some(length) =>
        match GetOffset(length, threads)
        case DivisionByZero => PlanFailed
        case Planned(segs) =>
          var st := Dispatch(v, Shared([], []), segs, order, net);
          if |st.reload| == 0 then Written(WriteFile(Values(st.resp))) else NotWritten(st.reload)
  }

  // ---------------------------------------------------------------------
  // Which segments end in `reload`

  /** Attempt `a` is the first one that gets a response. */
  predicate FirstResponseAt(n: nat -> Attempt, a: nat) {
    && 1 <= a <= MaxAttempts
    && n(a).Received?
    && forall b :: 1 <= b < a ==> n(b) == Raised
  }

  /** The segment's first response, within five attempts, is not a 206. */
  predicate Rejected(n: nat -> Attempt) {
    exists a :: 1 <= a <= MaxAttempts && FirstResponseAt(n, a)
                && n(a).response.status != PartialContent
  }

  /** All five attempts of the segment raise. */
  predicate Exhausts(n: nat -> Attempt) {
    forall a :: 1 <= a <= MaxAttempts ==> n(a) == Raised
  }

  /** At most one attempt is the first to get a response. */
  lemma FirstResponseUnique(n: nat -> Attempt, a: nat, b: nat)
    requires FirstResponseAt(n, a) && FirstResponseAt(n, b)
    ensures a == b
  {
  }

  /** `request_content` appends its headers to `reload` exactly when the
      segment is rejected. */
  lemma StepReload(st: Shared, seg: Segment, n: nat -> Attempt)
    ensures Step(AsWritten, st, seg, n).reload ==
      if Rejected(n) then st.reload + [BuildHeaders(seg)] else st.reload
  {
    var h := BuildHeaders(seg);
    RangeKeyRoundTrip(seg);
    assert '=' in h.range;
    var r := RequestContent(st, h, n);
    assert Step(AsWritten, st, seg, n) == r.after;
    match r.ending
    case Crashed =>
      assert false;
    case Exhausted =>
    case Stored =>
      assert FirstResponseAt(n, r.attempts);
      if Rejected(n) {
        var a :| 1 <= a <= MaxAttempts && FirstResponseAt(n, a) && n(a).response.status != PartialContent;
        FirstResponseUnique(n, a, r.attempts);
      }
    case Reloaded =>
      assert FirstResponseAt(n, r.attempts);
  }

  /** The headers of the rejected segments, in completion order: what
      `reload` should hold after all threads finished. */
  function RejectedHeaders(segs: seq<Segment>, order: seq<nat>, net: (nat, nat) -> Attempt)
    : seq<RequestHeaders>
    requires forall j :: 0 <= j < |order| ==> order[j] < |segs|
    decreases |order|
  {
    if |order| == 0 then []
    else
      (if Rejected(SegmentNet(net, order[0])) then [BuildHeaders(segs[order[0]])] else [])
      + RejectedHeaders(segs, order[1..], net)
  }

  /** No rejected headers exactly when no segment is rejected; each entry is
      the headers of a rejected segment. */
  lemma {:induction false} RejectedHeadersMeaning(segs: seq<Segment>, order: seq<nat>,
                                                  net: (nat, nat) -> Attempt)
    requires forall j :: 0 <= j < |order| ==> order[j] < |segs|
    ensures var hs := RejectedHeaders(segs, order, net);
      && (|hs| == 0 <==> forall j :: 0 <= j < |order| ==> !Rejected(SegmentNet(net, order[j])))
      && forall x :: x in hs ==>
           exists j :: 0 <= j < |order| && Rejected(SegmentNet(net, order[j]))
                                        && x == BuildHeaders(segs[order[j]])
    decreases |order|
  {
    if |order| > 0 {
      var rest := RejectedHeaders(segs, order[1..], net);
      RejectedHeadersMeaning(segs, order[1..], net);
      assert forall j :: 0 <= j < |order[1..]| ==> order[1..][j] == order[j + 1];
      var hs := RejectedHeaders(segs, order, net);
      forall x | x in hs
        ensures exists j :: 0 <= j < |order| && Rejected(SegmentNet(net, order[j]))
                                             && x == BuildHeaders(segs[order[j]])
      {
        if x !in rest {
          assert Rejected(SegmentNet(net, order[0])) && x == BuildHeaders(segs[order[0]]);
        } else {
          var i :| 0 <= i < |order[1..]| && Rejected(SegmentNet(net, order[1..][i]))
                                         && x == BuildHeaders(segs[order[1..][i]]);
          assert order[1..][i] == order[i + 1];
        }
      }
      if |hs| == 0 {
        forall j | 0 <= j < |order|
          ensures !Rejected(SegmentNet(net, order[j]))
        {
          if j > 0 {
            assert order[1..][j - 1] == order[j];
          }
        }
      }
    }
  }

  /** Running the threads leaves in `reload` exactly the rejected segments'
      headers, appended in completion order. */
  lemma {:induction false} DispatchReload(st: Shared, segs: seq<Segment>, order: seq<nat>,
                                          net: (nat, nat) -> Attempt)
    requires forall j :: 0 <= j < |order| ==> order[j] < |segs|
    ensures Dispatch(AsWritten, st, segs, order, net).reload == st.reload + RejectedHeaders(segs, order, net)
    decreases |order|
  {
    if |order| > 0 {
      var k := order[0];
      var st1 := Step(AsWritten, st, segs[k], SegmentNet(net, k));
      var here := if Rejected(SegmentNet(net, k)) then [BuildHeaders(segs[k])] else [];
      var rest := RejectedHeaders(segs, order[1..], net);
      assert st1.reload == st.reload + here by {
        StepReload(st, segs[k], SegmentNet(net, k));
      }
      assert Dispatch(AsWritten, st1, segs, order[1..], net).reload == st1.reload + rest by {
        assert forall j :: 0 <= j < |order[1..]| ==> order[1..][j] == order[j + 1];
        DispatchReload(st1, segs, order[1..], net);
      }
      DispatchFirst(AsWritten, st, segs, order, net);
      assert RejectedHeaders(segs, order, net) == here + rest;
      ConcatAssociative(st.reload, here, rest);
    }
  }

  /** Proved apart from `DispatchReload`, whose context makes the solver
      unstable on this sequence equality. */
  lemma ConcatAssociative<T>(a: seq<T>, b: seq<T>, c: seq<T>)
    ensures a + b + c == a + (b + c)
  {
  }

  /** With a usable `Content-Length` and a nonzero thread count, `start` writes
      the file exactly when no segment's first response is a non-206 status;
      otherwise `reload` lists the headers of rejected segments only. */
  lemma RunWritesUnlessRejected(length: nat, threads: int, order: seq<nat>, net: (nat, nat) -> Attempt)
    requires threads != 0 && IsOrder(order, Count(threads))
    ensures var r := Run(AsWritten, map[ContentLengthField := Decimal(length)], threads, order, net);
      && (r.Written? || r.NotWritten?)
      && (r.Written? <==> forall k :: 0 <= k < threads ==> !Rejected(SegmentNet(net, k)))
      && (r.NotWritten? ==> forall x :: x in r.reload ==>
            exists k :: 0 <= k < threads && Rejected(SegmentNet(net, k))
                        && x == BuildHeaders(GetOffset(length, threads).segments[k]))
  {
    var segs := GetOffset(length, threads).segments;
    var st := Dispatch(AsWritten, Shared([], []), segs, order, net);
    var r := Run(AsWritten, map[ContentLengthField := Decimal(length)], threads, order, net);
    assert r == if |st.reload| == 0 then Written(WriteFile(Values(st.resp))) else NotWritten(st.reload) by {
      ParseDecimal(length);
    }
    assert st.reload == RejectedHeaders(segs, order, net) by {
      DispatchReload(Shared([], []), segs, order, net);
    }
    RejectedHeadersMeaning(segs, order, net);
    if r.Written? {
      forall k | 0 <= k < threads
        ensures !Rejected(SegmentNet(net, k))
      {
        assert k in order;
      }
    }
    if r.NotWritten? {
      forall x | x in r.reload
        ensures exists k :: 0 <= k < threads && Rejected(SegmentNet(net, k))
                            && x == BuildHeaders(segs[k])
      {
        var j :| 0 <= j < |order| && Rejected(SegmentNet(net, order[j]))
                 && x == BuildHeaders(segs[order[j]]);
        assert order[j] < threads;
      }
    }
  }
}
